=== FILE: README.md ===
# Clinic appointment backend — a Dafny model

This project models the request handlers of a clinic appointment backend.
Patients book slots that doctors publish. Doctors accept, reject or complete
the visits that result, and patients rate visits in surveys. Administrators
manage accounts, and each account's role is backed by a patient (Pacjent) or
doctor (Lekarz) row.

The whole store is one value, `Records.Db`, made of six maps keyed by
integers: accounts, patients, doctors, visits (Wizyta), slots (TerminLekarza)
and surveys (Ankieta). Each handler is a pure function from a store and a
request to an `Outcome`, which is one of:

- `Ok`, carrying the new store or the answer;
- `NotFound`;
- `BadRequest`, carrying a `Reason`;
- `ServerError`.

On every refusal the store is unchanged, because the outcome carries no
store. The current time is a parameter, and instants are integers counted
in minutes.

Modules, following the controllers:

- `Common`: options, outcomes, patch fields (`Present`, `OrKeep`), `FirstWhere` (a `FirstOrDefault` without ordering, taking the least key) and fresh keys.
- `Records`: the entities and the status enum with its parser.
- `Slots`: TerminController, with the overlap test, single creation, the batch slicer and deletion.
- `Visits`: WizytaController, with direct creation, the admin patch, deletion, reservation and the status transitions.
- `Booking`: the visit lifecycle as a transition table, plus the invariant that couples pending visits to taken slots.
- `Listing`: the filtered and ordered read handlers.
- `Surveys` and `Ratings`: AnkietaController, with the one-survey-per-visit gate, survey numbering and the per-doctor aggregate.
- `Identity`: the account lookups, the invariant tying roles to patient and doctor rows, and the enrollment shared by Register and CreateUser.
- `Accounts`: AuthController and the account handlers of AdminController.
- `Patients`: PacjentController.

The model follows the code, including these behaviours a reader may not expect:

- Cancellation applies to a visit in any status, including the final ones (`Visits.Cancel`, `Booking.FinalStatuses`).
- A missing patient or slot in a reservation is a `BadRequest`, not a not-found answer.
- The overlap test of slot creation is not the half-open interval test. It misses a new slot that strictly encloses an existing one (`Slots.ConflictsIsOverlapButEnclosure`, `Slots.EnclosingSlotIsAccepted`). So the model claims only that no two slots of one doctor start at the same instant, not that slots are disjoint.
- Only direct creation checks that the doctor is free at the instant. Reservation and the admin patch do not (`Visits.ReserveSkipsBusyCheck`, `Visits.UpdateSkipsBusyCheck`).
- The admin patch can set a visit to Oczekująca without any slot behind it (`Booking.UpdateMayBreakInv`).
- Slot creation never checks that a slot ends after it starts. An empty slot passes the overlap test and breaks the booking invariant. It then lets a second slot of the same doctor start at the same instant, and booking both leaves two pending visits of one doctor at one instant (`Booking.EmptySlotMayBreakInv`). The preservation lemmas for single slot creation therefore assume a non-empty slot.
- The named rating handler never looks at the visit: it neither checks that the visit exists nor that it took place (`Surveys.RateVisitIgnoresVisits`).
- The anonymous handler checks "took place" before "already rated".
- The rating aggregate selects surveys by the doctor stored in the survey, not by the visits of that doctor.
- The administrator's account patch changes the stored e-mail but not the key that e-mail lookups search. Afterwards the account logs in with its old e-mail only, and the new e-mail can be registered by a second account (`Accounts.EmailChangeKeepsOldLookup`).
- A failed account transaction answers 500 (`ServerError`). It is not reported as a conflict.
- DeletePacjent removes a patient row even when it belongs to a Patient account, and leaves that account without its record (`Patients.DeletePatientOrphansAccount`).
- The survey document class lacks the visit, doctor and rating fields that the controller reads and writes. The model follows the controller.

## Model

| member | source | states |
|---|---|---|
| Records.ParseStatus | Backend/Controllers/WizytaController.cs:191-192 | a string parses to a status exactly when it is one of the six stored spellings, and the status it parses to has that spelling |
| Records.ParseStatusName | Backend/Controllers/WizytaController.cs:191-194 | every status spelling parses back to that status |
| Common.FirstWhere | Backend/Controllers/WizytaController.cs:328-329 | the first match is a matching row with the least key, and there is none only when no row matches |
| Slots.ConflictsIsOverlapButEnclosure | Backend/Controllers/TerminController.cs:85-88 | for non-empty intervals, the handlers' test equals interval overlap minus the case of a new slot strictly enclosing the old one |
| Slots.EnclosingSlotIsAccepted | Backend/Controllers/TerminController.cs:85-91 | a concrete overlapping slot, 9:50-10:40 over 10:00-10:30, is accepted |
| Slots.CreateSlot | Backend/Controllers/TerminController.cs:80-102 | unknown doctor, then overlap, are refused in that order; it succeeds exactly when neither applies, adding one available slot with the given bounds under a fresh key and changing nothing else |
| Slots.Slice | Backend/Controllers/TerminController.cs:127-151 | there are no pieces exactly when the first would pass `until`; otherwise the pieces start at `from` and step by the duration; each lasts the duration and ends by `until`; one more piece would pass `until`; starts ascend |
| Slots.SliceCount | Backend/Controllers/TerminController.cs:129-150 | the number of pieces is (until - from) / duration, rounded down |
| Slots.SliceTiles | Backend/Controllers/TerminController.cs:127-150 | the first piece starts at `from` and each piece starts where the previous one ends |
| Slots.Fitting | Backend/Controllers/TerminController.cs:134-148 | a candidate is kept exactly when it passes the overlap test against the slots that existed before the call |
| Slots.FittingAscending | Backend/Controllers/TerminController.cs:126-151 | the kept candidates stay in slicing order |
| Slots.AddAll | Backend/Controllers/TerminController.cs:141-154 | every kept piece becomes an available slot of the doctor under its own fresh, increasing key; old slots are kept as they were; no other key appears |
| Slots.CreateBatch | Backend/Controllers/TerminController.cs:122-154 | an unknown doctor is refused; otherwise the batch never fails and adds exactly the non-conflicting pieces as available slots, leaving every other slot and table alone; when the first piece already passes the range end the store is unchanged and no slot is created |
| Slots.DeleteSlot | Backend/Controllers/TerminController.cs:176-185 | a missing id is NotFound, then a booked slot is refused; otherwise exactly that slot is removed |
| Slots.DeleteUndoesCreate | Backend/Controllers/TerminController.cs:176-185 | deleting a freshly created slot gives back the original store |
| Slots.CreateKeepsWellFormed | Backend/Controllers/TerminController.cs:84-102 | creating a non-empty slot keeps every slot non-empty and the starts of one doctor's slots distinct |
| Slots.BatchKeepsWellFormed | Backend/Controllers/TerminController.cs:126-154 | the batch keeps the same well-formedness |
| Slots.AddedKeepWellFormed | Backend/Controllers/TerminController.cs:139-153 | adding non-empty, ascending, non-conflicting pieces keeps the table well formed |
| Slots.FlipKeepsWellFormed | Backend/Controllers/WizytaController.cs:267-268 | changing a slot's availability keeps the table well formed |
| Visits.CreateVisit | Backend/Controllers/WizytaController.cs:128-153 | missing patient, missing doctor, then a non-cancelled visit of that doctor at that exact instant, are refused in that order; success is exactly the absence of all three and stores one Zaplanowana visit under a fresh key |
| Visits.UpdateVisit | Backend/Controllers/WizytaController.cs:181-205 | unknown id, then a status outside the six-string list, then an unknown doctor, are refused in that order; on success only that visit changes; absent fields keep their values and the patient never changes |
| Visits.DeleteVisit | Backend/Controllers/WizytaController.cs:213-219 | an unknown id is NotFound; otherwise exactly that visit is removed |
| Visits.Cancel | Backend/Controllers/WizytaController.cs:226-232 | any existing visit becomes Anulowana whatever its status; no slot changes |
| Visits.Accept | Backend/Controllers/WizytaController.cs:298-307 | succeeds exactly from Oczekująca and yields Zaakceptowana; an unknown id is NotFound |
| Visits.Complete | Backend/Controllers/WizytaController.cs:347-356 | succeeds exactly from Zaakceptowana and yields Odbyta; an unknown id is NotFound |
| Visits.MatchingSlot | Backend/Controllers/WizytaController.cs:328-329 | finds a slot of the visit's doctor starting at the visit's instant (the least such key), or reports that none exists |
| Visits.Reject | Backend/Controllers/WizytaController.cs:317-337 | succeeds exactly from Oczekująca and yields Odrzucona; the matching slot, if any, becomes available; with no match the slots are untouched and the rejection still succeeds |
| Visits.Reserve | Backend/Controllers/WizytaController.cs:241-271 | missing patient, missing slot, taken slot, then a slot not after `now`, are refused in that order; success stores a pending visit at the slot's start with the slot's doctor and marks the slot taken |
| Visits.UpdateIdempotent | Backend/Controllers/WizytaController.cs:186-205 | applying the same admin patch twice equals applying it once |
| Visits.EmptyPatchChangesNothing | Backend/Controllers/WizytaController.cs:186-203 | a patch with every field absent leaves the store as it was |
| Visits.UpdateSkipsBusyCheck | Backend/Controllers/WizytaController.cs:186-205 | the admin patch can move a visit onto an instant where its doctor already has a planned visit |
| Visits.ReserveSkipsBusyCheck | Backend/Controllers/WizytaController.cs:241-271 | a reservation can create a second live visit of one doctor at one instant |
| Booking.HandlersFollowTable | Backend/Controllers/WizytaController.cs:296-359 | accept, reject, complete and cancel each succeed exactly when the transition table has an entry, set the table's status and touch no other visit |
| Booking.FinalStatuses | Backend/Controllers/WizytaController.cs:224-234 | from Odbyta, Odrzucona and Anulowana only cancellation still applies |
| Booking.ReserveKeepsInv | Backend/Controllers/WizytaController.cs:258-271 | reservation keeps well-formed slots, every pending visit holding a taken slot, and pending visits not sharing a slot |
| Booking.LeavingPendingKeepsInv | Backend/Controllers/WizytaController.cs:303-306 | moving a visit to any status but Oczekująca keeps the booking invariant |
| Booking.AcceptKeepsInv | Backend/Controllers/WizytaController.cs:298-307 | acceptance keeps the booking invariant |
| Booking.CompleteKeepsInv | Backend/Controllers/WizytaController.cs:347-356 | completion keeps the booking invariant |
| Booking.CancelKeepsInv | Backend/Controllers/WizytaController.cs:226-232 | cancellation keeps the booking invariant |
| Booking.RejectKeepsInv | Backend/Controllers/WizytaController.cs:324-337 | rejection frees a slot no other pending visit holds, so the invariant survives |
| Booking.CreateVisitKeepsInv | Backend/Controllers/WizytaController.cs:144-153 | direct creation keeps the booking invariant |
| Booking.DeleteVisitKeepsInv | Backend/Controllers/WizytaController.cs:213-219 | deletion keeps the booking invariant |
| Booking.CreateSlotKeepsInv | Backend/Controllers/TerminController.cs:93-102 | creating a non-empty slot keeps the booking invariant |
| Booking.BatchKeepsInv | Backend/Controllers/TerminController.cs:126-154 | the batch keeps the booking invariant |
| Booking.DeleteSlotKeepsInv | Backend/Controllers/TerminController.cs:180-185 | only free slots are deleted, so pending visits keep their slots |
| Booking.UpdateMayBreakInv | Backend/Controllers/WizytaController.cs:189-194 | the admin patch can make a visit pending with no slot held, breaking the invariant |
| Booking.EmptySlotMayBreakInv | Backend/Controllers/TerminController.cs:80-102 | an empty slot is accepted and breaks the invariant; a second slot of the doctor can then start at the same instant, and booking both gives two pending visits of one doctor at one instant |
| Booking.RejectUndoesReserve | Backend/Controllers/WizytaController.cs:317-337 | rejecting a fresh reservation restores the slot table exactly and leaves the visit Odrzucona |
| Listing.Insert | Backend/Controllers/TerminController.cs:42 | inserting a key into an ordered list keeps it ordered and adds exactly that key |
| Listing.InsertDistinct | Backend/Controllers/TerminController.cs:42 | inserting a new key keeps the list free of repeats |
| Listing.Select | Backend/Controllers/TerminController.cs:28-43 | the result lists exactly the selected rows, each once, in non-decreasing order of the key |
| Listing.AvailableSlots | Backend/Controllers/TerminController.cs:26-43 | exactly the available slots starting after `now`, each once, earliest first |
| Listing.DoctorSlots | Backend/Controllers/TerminController.cs:52-70 | exactly the doctor's slots (only the available future ones when asked), each once, earliest first |
| Listing.PendingVisits | Backend/Controllers/WizytaController.cs:366-384 | exactly the doctor's Oczekująca visits, each once, earliest first |
| Surveys.NextNumber | Backend/Controllers/AnkietaController.cs:92-101 | the new number is above every number in use, 1 on an empty collection, and one past the largest otherwise |
| Surveys.Insert | Backend/Controllers/AnkietaController.cs:117 | the survey is stored under a fresh key and nothing else changes |
| Surveys.CreateSurvey | Backend/Controllers/AnkietaController.cs:92-117 | always succeeds; the new survey is numbered one past the largest number in use (1 when there is none) and takes the request's fields, with defaults for the fill-in time and answers; it has no visit, doctor, doctor name, visit date or rating; creation and modification times are `now` |
| Surveys.UpdateSurvey | Backend/Controllers/AnkietaController.cs:133-155 | an unknown id is NotFound; otherwise answers and notes are replaced only when given, the modification time is stamped and nothing else changes |
| Surveys.DeleteSurvey | Backend/Controllers/AnkietaController.cs:170-173 | an unknown id is NotFound; otherwise exactly that survey is removed |
| Surveys.RateVisit | Backend/Controllers/AnkietaController.cs:219-258 | an already rated visit, then a rating outside 1..5, are refused in that order; success is exactly the absence of both and stores, numbered one past the largest number in use, a named rating of kind "Ocena wizyty" for that visit, doctor, patient and PESEL, with the given answers (none when absent) and notes, all times `now` |
| Surveys.RateAnonymously | Backend/Controllers/AnkietaController.cs:327-380 | a visit that is missing, or whose doctor is missing, is NotFound; then not Odbyta, already rated and out-of-range rating are refused in that order; success stores, numbered one past the largest number in use, a survey with no patient and no PESEL, marked anonymous, with the visit's doctor, doctor name and date, the given answers and notes, all times `now` |
| Surveys.IsRated | Backend/Controllers/AnkietaController.cs:399-406 | reports rated exactly when some survey is about the visit, with that survey's rating |
| Surveys.AddKeepsInv | Backend/Controllers/AnkietaController.cs:220-225 | adding a survey numbered above the rest for an unrated visit keeps one survey per visit and unique numbers |
| Surveys.CreateKeepsInv | Backend/Controllers/AnkietaController.cs:92-117 | free-form creation keeps the survey invariant |
| Surveys.RateKeepsInv | Backend/Controllers/AnkietaController.cs:219-258 | a named rating keeps the survey invariant |
| Surveys.RateAnonymouslyKeepsInv | Backend/Controllers/AnkietaController.cs:338-380 | an anonymous rating keeps the survey invariant |
| Surveys.UpdateKeepsInv | Backend/Controllers/AnkietaController.cs:140-155 | an update keeps the survey invariant |
| Surveys.DeleteKeepsInv | Backend/Controllers/AnkietaController.cs:170-173 | a deletion keeps the survey invariant |
| Surveys.UpdateIdempotent | Backend/Controllers/AnkietaController.cs:140-155 | applying the same survey patch twice at one instant equals applying it once |
| Surveys.RatedVisitStaysRated | Backend/Controllers/AnkietaController.cs:220-225 | after a named rating the visit reports rated, and both rating handlers refuse it from then on |
| Surveys.AnonymouslyRatedVisitStaysRated | Backend/Controllers/AnkietaController.cs:339-344 | after an anonymous rating the visit reports rated, and both rating handlers refuse it from then on |
| Surveys.RateVisitIgnoresVisits | Backend/Controllers/AnkietaController.cs:219-228 | a named rating of a visit that does not exist is accepted |
| Ratings.SumRemove | Backend/Controllers/AnkietaController.cs:301 | the sum of ratings does not depend on the order in which surveys are taken |
| Ratings.SumFrame | Backend/Controllers/AnkietaController.cs:301 | a survey outside the summed set does not affect the sum |
| Ratings.DoctorRatings | Backend/Controllers/AnkietaController.cs:297-302 | the count is the number of surveys naming the doctor with a rating, and the sum is the sum of their ratings |
| Ratings.Mean | Backend/Controllers/AnkietaController.cs:301 | the mean is 0 without ratings and otherwise the sum over the count |
| Ratings.AddCounted | Backend/Controllers/AnkietaController.cs:297-302 | storing a survey that counts for the doctor adds one to the count and its rating to the sum |
| Ratings.AddUncounted | Backend/Controllers/AnkietaController.cs:297-302 | storing a survey that does not count leaves the aggregate alone |
| Ratings.RatingUpdatesAggregate | Backend/Controllers/AnkietaController.cs:237-258 | a named rating adds exactly one rating to its doctor's aggregate and changes no other doctor's |
| Ratings.AnonymousRatingUpdatesAggregate | Backend/Controllers/AnkietaController.cs:356-380 | an anonymous rating adds exactly one rating to the aggregate of the visit's doctor and changes no other doctor's |
| Identity.UserByEmail | Backend/Controllers/AdminController.cs:119-120 | finds an account whose lookup key is the e-mail, or reports that none has it; the key is the e-mail the account was created with (see Left out) |
| Identity.PatientOf | Backend/Controllers/AdminController.cs:192-195 | finds the patient row linked to the account, or reports that none is |
| Identity.DoctorOf | Backend/Controllers/AdminController.cs:192-195 | finds the doctor row linked to the account, or reports that none is |
| Identity.LinkNew | Backend/Controllers/AdminController.cs:161-182 | a row for an account without one links that account and no other, and keeps at most one row per account |
| Identity.LinksGrow | Backend/Controllers/AdminController.cs:147-159 | the rows stay valid when accounts are added |
| Identity.Unlink | Backend/Controllers/AdminController.cs:224-232 | removing a row unlinks its account only |
| Identity.Relink | Backend/Controllers/AdminController.cs:306-336 | rewriting a row without changing its account keeps every link |
| Identity.LinksShrink | Backend/Controllers/AdminController.cs:363-370 | an account without rows can be removed |
| Identity.EnrollmentError | Backend/Controllers/AdminController.cs:119-134 | a request is refused exactly when the e-mail is taken, a patient lacks a PESEL or has a taken one, or a doctor lacks a specialty |
| Identity.Enroll | Backend/Controllers/AdminController.cs:119-184 | e-mail taken, missing PESEL, missing specialty, then taken PESEL, are refused in that order, then an account the identity library rejects; success adds the account with the role as given, plus one linked patient row for Patient, one doctor row for Doctor, and neither otherwise |
| Identity.EnrollKeepsInv | Backend/Controllers/AdminController.cs:147-184 | enrollment keeps unique e-mail lookup keys, unique PESELs and the role records; the new account's key is its e-mail |
| Identity.EnrollKeepsPesels | Backend/Controllers/AdminController.cs:130-134 | enrollment keeps PESELs unique |
| Identity.EnrollKeepsRoleRecords | Backend/Controllers/AdminController.cs:161-182 | enrollment keeps "has a patient row exactly when Patient, has a doctor row exactly when Doctor" |
| Identity.EnrollKeepsPatientRows | Backend/Controllers/AdminController.cs:161-171 | the patient half of the role records survives enrollment |
| Identity.EnrollKeepsDoctorRows | Backend/Controllers/AdminController.cs:172-182 | the doctor half of the role records survives enrollment |
| Accounts.Register | Backend/Controllers/AuthController.cs:37-108 | refuses and succeeds exactly as enrollment does, and on success returns a session for the new account expiring a day after `now` |
| Accounts.Login | Backend/Controllers/AuthController.cs:114-131 | succeeds exactly when an account's lookup key is the e-mail and the password checks out; an unknown e-mail and a wrong password get the same refusal; the session belongs to the account found, carries its stored e-mail, which equals the one given exactly when the account's e-mail was never changed away from its key, and expires 24 hours after `now` |
| Accounts.LoginFindsAccount | Backend/Controllers/AuthController.cs:114-131 | with unique lookup keys, login with an account's key and password opens that account's session |
| Accounts.RegisteredUserCanLogIn | Backend/Controllers/AuthController.cs:37-131 | a newly registered account can log in at any later time and gets its own session |
| Accounts.RemoveRoleRow | Backend/Controllers/AdminController.cs:224-232 | only a row of this account is removed: its patient row when the old role is Patient, its doctor row when Doctor |
| Accounts.UpdateUserRole | Backend/Controllers/AdminController.cs:192-259 | unknown account, missing PESEL, missing specialty, then a PESEL held by another account's row, are refused in that order; a request passing them succeeds unless the new patient row clashes with a row of the same account left in place, which is the 500 and arises only when the role records are already broken; success sets the role, drops the old role's row and adds the new role's row from the account's names |
| Accounts.RoleChangeClash | Backend/Data/RelationalDbContext.cs:36-38 | the unique PESEL index can only reject the new patient row if the account already had a patient row it should not have |
| Accounts.RemoveRoleRowUnlinks | Backend/Controllers/AdminController.cs:224-232 | under the invariant the removal leaves the account without rows and every other account's rows as they were |
| Accounts.UpdateUserRoleKeepsInv | Backend/Controllers/AdminController.cs:224-259 | a role change keeps the identity invariant, and the account ends with the row of its new role and no other |
| Accounts.RoleChangeKeepsPatientRows | Backend/Controllers/AdminController.cs:224-248 | a role change keeps PESELs unique and patient rows in step with roles; the account has a patient row exactly when the new role is Patient |
| Accounts.RoleChangeKeepsDoctorRows | Backend/Controllers/AdminController.cs:224-259 | a role change keeps doctor rows in step with roles; the account has a doctor row exactly when the new role is Doctor |
| Accounts.UpdateUserRoleNoClash | Backend/Controllers/AdminController.cs:251-258 | under the invariant a role change never fails with 500 |
| Accounts.PatchPatients | Backend/Controllers/AdminController.cs:306-324 | the account's patient row takes the new names and the new PESEL when given; a changed PESEL is refused exactly when another account's row holds it, fails with 500 exactly when another row of the same account holds it, and succeeds otherwise; other rows are untouched |
| Accounts.PatchDoctors | Backend/Controllers/AdminController.cs:326-336 | the account's doctor row takes the new names and specialty when given; other rows are untouched |
| Accounts.UpdateUser | Backend/Controllers/AdminController.cs:276-336 | unknown account is NotFound, then a changed e-mail that some account is found by is refused, then the patient row's outcome decides: refused, 500 or success; on success only non-empty fields overwrite, the e-mail lookup key is left as it was, names reach the linked rows, the role is untouched and the other tables stay as they were |
| Accounts.UpdateUserKeepsInv | Backend/Controllers/AdminController.cs:288-336 | the account patch keeps unique e-mail lookup keys, unique PESELs and the role records; the stored e-mails need not stay unique (see `Accounts.EmailChangeKeepsOldLookup`) |
| Accounts.EmailChangeKeepsOldLookup | Backend/Controllers/AdminController.cs:288-294 | after an account's e-mail is changed, login with the new e-mail is refused, login with the old one still opens that account's session, and a new account may register with the new e-mail, so two accounts store it |
| Accounts.UpdateUserNoClash | Backend/Controllers/AdminController.cs:314-322 | under the invariant the account patch never fails with 500 |
| Accounts.DeleteUser | Backend/Controllers/AdminController.cs:353-376 | the caller's own account is refused first, then an unknown account is NotFound; otherwise the account and its linked patient and doctor rows go and every other row stays |
| Accounts.DeleteUserKeepsInv | Backend/Controllers/AdminController.cs:363-376 | removal keeps the identity invariant and leaves no row linked to the removed account |
| Patients.PatientByPesel | Backend/Controllers/PacjentController.cs:56-59 | NotFound exactly when no row has the PESEL; otherwise a row with that PESEL |
| Patients.PeselFindsRow | Backend/Data/RelationalDbContext.cs:36-38 | with the unique PESEL index, the lookup returns the one row that has the PESEL |
| Patients.CreatePatient | Backend/Controllers/PacjentController.cs:73-81 | a taken PESEL is refused; otherwise exactly one row with the given names and PESEL and no account is added |
| Patients.CreateThenFind | Backend/Controllers/PacjentController.cs:73-81 | a created patient is then found by its PESEL |
| Patients.UpdatePatient | Backend/Controllers/PacjentController.cs:100-109 | an unknown id is NotFound; otherwise the names change only when non-empty, and the PESEL, the account link and every other row stay |
| Patients.DeletePatient | Backend/Controllers/PacjentController.cs:118-123 | an unknown id is NotFound; otherwise exactly that row is removed |
| Patients.DeleteUndoesCreate | Backend/Controllers/PacjentController.cs:118-123 | deleting a freshly created patient gives back the original store |
| Patients.CreatePatientKeepsInv | Backend/Controllers/PacjentController.cs:73-81 | creating a patient keeps the identity invariant |
| Patients.UpdatePatientKeepsInv | Backend/Controllers/PacjentController.cs:105-109 | renaming a patient keeps the identity invariant |
| Patients.DeletePatientOrphansAccount | Backend/Controllers/PacjentController.cs:118-123 | deleting the row of a Patient account breaks the role records |

## Left out

- Authentication, authorization attributes and JWT issuance: outside the handlers' logic. A session is reduced to its fields and expiry.
- The password check and the identity library's account creation are opaque. Each becomes a parameter: the set of accounts whose password matches, and a boolean verdict.
- Identity.UserByEmail: e-mail lookups search a normalised key that only account creation sets. The account patch writes the e-mail directly (Backend/Controllers/AdminController.cs:293-294) and leaves the key as it was. So after an e-mail change the account is found by its old e-mail and not by the new one, login follows the old e-mail, and the new e-mail can be given to a second account. The model keeps this behaviour; it promises unique lookup keys, not unique stored e-mails. The normalisation itself (upper-casing) is not modelled: the key is the e-mail exactly as given.
- DeleteUser: the identity library's refusal to delete an account is not modelled. That refusal is another opaque outcome.
- Cascading deletes of the database: removing a patient or doctor row removes their visits, and removing a doctor row also removes that doctor's slots (Backend/Migrations/20251124210124_AddTerminyLekarzy.cs:34). So when `Accounts.DeleteUser` or `Accounts.UpdateUserRole` drops a doctor row, the source also drops that doctor's slots, while the model keeps them. This is schema behaviour, not handler logic.
- Column widths: the PESEL column holds at most 11 characters, and the model accepts a longer PESEL. In the source, registration and the admin's CreateUser have already committed the account (Backend/Controllers/AuthController.cs:65, Backend/Controllers/AdminController.cs:150) when the patient row's save fails (Backend/Controllers/AuthController.cs:96, Backend/Controllers/AdminController.cs:171). The result is a Patient account with no Pacjent row and a 500, which the model does not produce.
- Timestamps on accounts and the DTO mapping of the read handlers carry no handler logic.
- The GET-by-id and list-all handlers, GetAnkietaByWizyta (the same lookup as `Surveys.IsRated`, returning the whole survey), LekarzController and DebugAuth: plain reads and CRUD without invariants.
- Transactions and concurrency: every handler is one atomic step. Nothing is claimed about racing reservations.
- Clocks and time zones: reservation compares against local time and the listings against UTC. Both are the one `now` parameter here.
- Ratings.Mean: the result is not rounded to two places, because the floating-point rounding is not modelled.
- Slots.Slice and Slots.CreateBatch: the handler never checks the duration. The model takes the inputs for which its loop ends (`Slots.SliceEnds`): a positive duration, or a first piece that already passes the range end, which yields an empty batch and a 200 reporting 0 slots. For the rest the handler does not answer normally, and the model excludes them by precondition. With a zero duration and a start no later than the end, the loop never ends. With a negative duration and a start plus duration no later than the end, it walks backwards until the date arithmetic throws, which is an unhandled 500.
- Server errors: the model answers 500 only where the unique PESEL index rejects a role change or an account patch, which happens only when the account's patient rows already break the role records (`Accounts.RoleChangeClash`, `Accounts.UpdateUserNoClash`). The other catch-all 500s come from exceptions in the document store or the database and are not modelled.
- Identifiers: account ids (strings in the source) and survey document ids are integers here. New keys are one past the largest key in use.
- Common.FirstWhere: a `FirstOrDefault` without an ordering returns an unspecified matching row. The model picks the least key. The choice matters only when several rows match. The invariants rule that out for the lookups used here, so it matters only on stores outside them, such as the one `Booking.EmptySlotMayBreakInv` builds.
- Surveys.RateAnonymously: the foreign keys make a visit without its doctor impossible in the database, so the not-found answer for it covers a store the source never holds.

=== FILE: accounts.dfy ===
/** The account handlers: registration and login (AuthController) and the
    administrator's role change, account update and account removal
    (AdminController). The administrator's CreateUser is `Identity.Enroll`. */
module Accounts {
  import opened Common
  import opened Records
  import opened Identity

  /** What a successful login or registration hands back; the signed token
      itself is not modelled. */
  datatype Session = Session(user: int, email: string, firstName: string, lastName: string,
                             role: string, expires: Instant)

  datatype Registration = Registration(db: Db, id: int, session: Session)

  /** The session issued for account `id`, valid for a day from `now`. */
  function SessionFor(users: map<int, User>, id: int, now: Instant): Session
    requires id in users
  {
    var u := users[id];
    Session(id, u.email, u.firstName, u.lastName, u.role, now + SessionMinutes)
  }

  /** Self-registration: the same checks and rows as the administrator's
      CreateUser, followed by a session for the new account. */
  function Register(db: Db, e: Enrollment, accepted: bool, now: Instant): (r: Outcome<Registration>)
    ensures r.Ok? <==> Enroll(db, e, accepted).Ok?
    ensures !r.Ok? ==> r == BadRequest(Enroll(db, e, accepted).reason)
    ensures r.Ok? ==> r.value.db == Enroll(db, e, accepted).value.db && r.value.id == Enroll(db, e, accepted).value.id
    ensures r.Ok? ==> r.value.session == Session(r.value.id, e.email, e.firstName, e.lastName, e.role, now + SessionMinutes)
  {
    match Enroll(db, e, accepted)
    case Ok(c) => Ok(Registration(c.db, c.id, SessionFor(c.db.users, c.id, now)))
    case BadRequest(why) => BadRequest(why)
    case _ => assert false; ServerError
  }

  /** Login. `accepts` holds the accounts for which the supplied password
      checks out; an unknown e-mail and a wrong password get the same
      answer. */
  function Login(db: Db, email: string, accepts: set<int>, now: Instant): (r: Outcome<Session>)
    ensures r.Ok? <==> UserByEmail(db.users, email).Some? && UserByEmail(db.users, email).value in accepts
    ensures !r.Ok? ==> r == BadRequest(BadCredentials)
    ensures r.Ok? ==> r.value.user in db.users && r.value.user in accepts && db.users[r.value.user].emailKey == email
    ensures r.Ok? ==> r.value == SessionFor(db.users, r.value.user, now)
    ensures r.Ok? ==> r.value.expires == now + SessionMinutes
    ensures r.Ok? ==> (r.value.email == email <==> db.users[r.value.user].email == db.users[r.value.user].emailKey)
  {
    match UserByEmail(db.users, email)
    case None => BadRequest(BadCredentials)
    case Some(id) => if id in accepts then Ok(SessionFor(db.users, id, now)) else BadRequest(BadCredentials)
  }

  /** With lookup keys unique, login opens a session for exactly the
      account whose key is given. */
  lemma LoginFindsAccount(db: Db, id: int, accepts: set<int>, now: Instant)
    requires EmailKeysUnique(db.users) && id in db.users && id in accepts
    ensures Login(db, db.users[id].emailKey, accepts, now) == Ok(SessionFor(db.users, id, now))
  {
  }

  /** A freshly registered account can log in with its password at any
      later time, and gets its own session back. */
  lemma RegisteredUserCanLogIn(db: Db, e: Enrollment, accepted: bool, now: Instant, accepts: set<int>, later: Instant)
    requires Register(db, e, accepted, now).Ok?
    requires Register(db, e, accepted, now).value.id in accepts
    ensures var g := Register(db, e, accepted, now).value;
      Login(g.db, e.email, accepts, later) == Ok(Session(g.id, e.email, e.firstName, e.lastName, e.role, later + SessionMinutes))
  {
    var g := Register(db, e, accepted, now).value;
    assert forall k :: k in db.users ==> db.users[k].emailKey != e.email;
    assert g.db.users[g.id].emailKey == e.email;
  }

  /** The rows left once the account's old role record is removed: its
      patient row when the old role is Patient, its doctor row when the old
      role is Doctor. */
  function RemoveRoleRow(db: Db, userId: int): (n: Db)
    requires userId in db.users
    ensures n == db.(patients := n.patients, doctors := n.doctors)
    ensures n.patients.Keys <= db.patients.Keys && n.doctors.Keys <= db.doctors.Keys
    ensures forall k :: k in n.patients ==> n.patients[k] == db.patients[k]
    ensures forall k :: k in n.doctors ==> n.doctors[k] == db.doctors[k]
    ensures forall k :: k in db.patients && db.patients[k].user != Some(userId) ==> k in n.patients
    ensures forall k :: k in db.doctors && db.doctors[k].user != Some(userId) ==> k in n.doctors
    ensures db.users[userId].role != PatientRole ==> n.patients == db.patients
    ensures db.users[userId].role != DoctorRole ==> n.doctors == db.doctors
    ensures db.users[userId].role == PatientRole && PatientOf(db.patients, userId).Some? ==>
              PatientOf(db.patients, userId).value !in n.patients
    ensures db.users[userId].role == DoctorRole && DoctorOf(db.doctors, userId).Some? ==>
              DoctorOf(db.doctors, userId).value !in n.doctors
  {
    var role := db.users[userId].role;
    if role == PatientRole && PatientOf(db.patients, userId).Some? then
      db.(patients := db.patients - {PatientOf(db.patients, userId).value})
    else if role == DoctorRole && DoctorOf(db.doctors, userId).Some? then
      db.(doctors := db.doctors - {DoctorOf(db.doctors, userId).value})
    else db
  }

  /** UpdateUserRole: validate the new role's data, drop the record of the
      old role, set the role, and create the record of the new role from
      the account's names. The new row takes the key one past the largest
      key in use before the old row is removed. The unique
      PESEL index rolls the whole change back (500) if the PESEL is still
      held by a row of this account that was not removed. */
  function UpdateUserRole(db: Db, userId: int, newRole: string, pesel: Option<string>, specialty: Option<string>): (r: Outcome<Db>)
    ensures r.NotFound? <==> userId !in db.users
    ensures userId in db.users && newRole == PatientRole && !Present(pesel) ==> r == BadRequest(PeselRequired)
    ensures userId in db.users && newRole == DoctorRole && !Present(specialty) ==> r == BadRequest(SpecialtyRequired)
    ensures userId in db.users && newRole == PatientRole && Present(pesel) && PeselUsedByOther(db.patients, pesel.value, userId) ==>
              r == BadRequest(PeselTaken)
    ensures r.BadRequest? ==> r.reason in {PeselRequired, SpecialtyRequired, PeselTaken}
    ensures r.Ok? <==>
              && userId in db.users
              && (newRole == PatientRole ==>
                    && Present(pesel) && !PeselUsedByOther(db.patients, pesel.value, userId)
                    && !PeselUsed(RemoveRoleRow(db, userId).patients, pesel.value))
              && (newRole == DoctorRole ==> Present(specialty))
    ensures r.ServerError? <==>
              && userId in db.users && newRole == PatientRole
              && Present(pesel) && !PeselUsedByOther(db.patients, pesel.value, userId)
              && PeselUsed(RemoveRoleRow(db, userId).patients, pesel.value)
    ensures r.ServerError? ==> !PatientRows(db)
    ensures r.Ok? ==> r.value.users == db.users[userId := db.users[userId].(role := newRole)]
    ensures r.Ok? ==> r.value == db.(users := r.value.users, patients := r.value.patients, doctors := r.value.doctors)
    ensures r.Ok? && newRole == PatientRole ==>
              var u := db.users[userId];
              && r.value.doctors == RemoveRoleRow(db, userId).doctors
              && r.value.patients == RemoveRoleRow(db, userId).patients[FreshKey(db.patients) := Patient(u.firstName, u.lastName, pesel.value, Some(userId))]
    ensures r.Ok? && newRole == DoctorRole ==>
              var u := db.users[userId];
              && r.value.patients == RemoveRoleRow(db, userId).patients
              && r.value.doctors == RemoveRoleRow(db, userId).doctors[FreshKey(db.doctors) := Doctor(u.firstName, u.lastName, specialty.value, Some(userId))]
    ensures r.Ok? && newRole != PatientRole && newRole != DoctorRole ==>
              r.value.patients == RemoveRoleRow(db, userId).patients && r.value.doctors == RemoveRoleRow(db, userId).doctors
  {
    if userId !in db.users then NotFound
    else if newRole == PatientRole && !Present(pesel) then BadRequest(PeselRequired)
    else if newRole == DoctorRole && !Present(specialty) then BadRequest(SpecialtyRequired)
    else if newRole == PatientRole && PeselUsedByOther(db.patients, pesel.value, userId) then BadRequest(PeselTaken)
    else
      var u := db.users[userId];
      var mid := RemoveRoleRow(db, userId);
      var n := mid.(users := db.users[userId := u.(role := newRole)]);
      if newRole == PatientRole then
        if PeselUsed(mid.patients, pesel.value) then
          RoleChangeClash(db, userId, pesel.value);
          ServerError
        else Ok(n.(patients := mid.patients[FreshKey(db.patients) := Patient(u.firstName, u.lastName, pesel.value, Some(userId))]))
      else if newRole == DoctorRole then
        Ok(n.(doctors := mid.doctors[FreshKey(db.doctors) := Doctor(u.firstName, u.lastName, specialty.value, Some(userId))]))
      else Ok(n)
  }

  /** The only way the new patient row can clash on PESEL: the account
      already has a patient row the role change does not remove, which the
      role invariant rules out. */
  lemma RoleChangeClash(db: Db, userId: int, pesel: string)
    requires userId in db.users
    requires !PeselUsedByOther(db.patients, pesel, userId)
    requires PeselUsed(RemoveRoleRow(db, userId).patients, pesel)
    ensures !PatientRows(db)
  {
    var mid := RemoveRoleRow(db, userId);
    var k :| k in mid.patients && mid.patients[k].pesel == pesel;
    assert db.patients[k].user == Some(userId);
    if PatientRows(db) {
      assert false;
    }
  }

  /** Under the invariant the removal leaves the account without rows of
      either kind, and every other account's rows as they were. */
  lemma RemoveRoleRowUnlinks(db: Db, userId: int)
    requires userId in db.users && RoleRecords(db)
    ensures var mid := RemoveRoleRow(db, userId);
      && Links(mid.patients, PatientUser, db.users.Keys)
      && Links(mid.doctors, DoctorUser, db.users.Keys)
      && !HasPatient(mid.patients, userId) && !HasDoctor(mid.doctors, userId)
      && (forall u :: u != userId ==> (HasPatient(mid.patients, u) <==> HasPatient(db.patients, u)))
      && (forall u :: u != userId ==> (HasDoctor(mid.doctors, u) <==> HasDoctor(db.doctors, u)))
  {
    var role := db.users[userId].role;
    var mid := RemoveRoleRow(db, userId);
    if role == PatientRole {
      var k := PatientOf(db.patients, userId).value;
      Unlink(db.patients, PatientUser, db.users.Keys, k);
      assert mid.doctors == db.doctors;
    } else if role == DoctorRole {
      var k := DoctorOf(db.doctors, userId).value;
      Unlink(db.doctors, DoctorUser, db.users.Keys, k);
      assert mid.patients == db.patients;
    } else {
      assert mid.patients == db.patients && mid.doctors == db.doctors;
    }
  }

  /** A role change keeps the identity invariant; the account ends up with
      the record of its new role and no other. */
  lemma UpdateUserRoleKeepsInv(db: Db, userId: int, newRole: string, pesel: Option<string>, specialty: Option<string>)
    requires IdentityInv(db) && UpdateUserRole(db, userId, newRole, pesel, specialty).Ok?
    ensures var n := UpdateUserRole(db, userId, newRole, pesel, specialty).value;
      && IdentityInv(n)
      && (HasPatient(n.patients, userId) <==> newRole == PatientRole)
      && (HasDoctor(n.doctors, userId) <==> newRole == DoctorRole)
  {
    var n := UpdateUserRole(db, userId, newRole, pesel, specialty).value;
    assert forall k :: k in n.users ==> n.users[k].emailKey == db.users[k].emailKey;
    RemoveRoleRowUnlinks(db, userId);
    RoleChangeKeepsPatientRows(db, userId, newRole, pesel, specialty);
    RoleChangeKeepsDoctorRows(db, userId, newRole, pesel, specialty);
  }

  /** The patient half of the role change: unique PESELs, and the patient
      rows follow the roles. */
  lemma RoleChangeKeepsPatientRows(db: Db, userId: int, newRole: string, pesel: Option<string>, specialty: Option<string>)
    requires IdentityInv(db) && UpdateUserRole(db, userId, newRole, pesel, specialty).Ok?
    ensures var n := UpdateUserRole(db, userId, newRole, pesel, specialty).value;
      && PeselsUnique(n.patients) && PatientRows(n)
      && (HasPatient(n.patients, userId) <==> newRole == PatientRole)
  {
    var n := UpdateUserRole(db, userId, newRole, pesel, specialty).value;
    var mid := RemoveRoleRow(db, userId);
    RemoveRoleRowUnlinks(db, userId);
    assert n.users.Keys == db.users.Keys;
    if newRole == PatientRole {
      LinkNew(mid.patients, PatientUser, db.users.Keys, FreshKey(db.patients), n.patients[FreshKey(db.patients)], userId);
      assert !PeselUsed(mid.patients, pesel.value);
    } else {
      assert n.patients == mid.patients;
    }
  }

  /** The doctor half of the role change. */
  lemma RoleChangeKeepsDoctorRows(db: Db, userId: int, newRole: string, pesel: Option<string>, specialty: Option<string>)
    requires IdentityInv(db) && UpdateUserRole(db, userId, newRole, pesel, specialty).Ok?
    ensures var n := UpdateUserRole(db, userId, newRole, pesel, specialty).value;
      && DoctorRows(n)
      && (HasDoctor(n.doctors, userId) <==> newRole == DoctorRole)
  {
    var n := UpdateUserRole(db, userId, newRole, pesel, specialty).value;
    var mid := RemoveRoleRow(db, userId);
    RemoveRoleRowUnlinks(db, userId);
    assert n.users.Keys == db.users.Keys;
    if newRole == DoctorRole {
      LinkNew(mid.doctors, DoctorUser, db.users.Keys, FreshKey(db.doctors), n.doctors[FreshKey(db.doctors)], userId);
    } else {
      assert n.doctors == mid.doctors;
    }
  }

  /** Under the invariant the PESEL index never rejects a role change. */
  lemma UpdateUserRoleNoClash(db: Db, userId: int, newRole: string, pesel: Option<string>, specialty: Option<string>)
    requires IdentityInv(db)
    ensures !UpdateUserRole(db, userId, newRole, pesel, specialty).ServerError?
  {
  }

  /** The administrator's account patch. A role field in the request is
      ignored by the handler and has no counterpart here. */
  datatype UserPatch = UserPatch(
    email: Option<string>,
    firstName: Option<string>,
    lastName: Option<string>,
    pesel: Option<string>,
    specialty: Option<string>
  )

  /** The e-mail is changed to one another account already uses. */
  predicate EmailClash(users: map<int, User>, userId: int, p: UserPatch)
    requires userId in users
  {
    Present(p.email) && p.email.value != users[userId].email && UserByEmail(users, p.email.value).Some?
  }

  /** The patient row after the patch: new names when given, a new PESEL
      when given, different, and not held by another account's row. */
  function PatchPatients(patients: map<int, Patient>, userId: int, p: UserPatch): (r: Outcome<map<int, Patient>>)
    ensures r.Ok? || r == BadRequest(PeselTaken) || r.ServerError?
    ensures r.Ok? ==> r.value.Keys == patients.Keys
    ensures r.Ok? ==> forall k :: k in patients && patients[k].user != Some(userId) ==> r.value[k] == patients[k]
    ensures PatientOf(patients, userId).None? ==> r == Ok(patients)
    ensures PatientOf(patients, userId).Some? ==>
              var k := PatientOf(patients, userId).value;
              var row := patients[k];
              var changes := Present(p.pesel) && p.pesel.value != row.pesel;
              && (r == BadRequest(PeselTaken) <==> changes && PeselUsedByOther(patients, p.pesel.value, userId))
              && (r.ServerError? <==>
                    changes && !PeselUsedByOther(patients, p.pesel.value, userId) && PeselUsed(patients - {k}, p.pesel.value))
              && (r.Ok? ==> r.value[k] == Patient(OrKeep(p.firstName, row.firstName), OrKeep(p.lastName, row.lastName),
                                                  OrKeep(p.pesel, row.pesel), Some(userId)))
    ensures r.ServerError? ==> !OneRowEach(patients, PatientUser)
  {
    match PatientOf(patients, userId)
    case None => Ok(patients)
    case Some(k) =>
      var row := patients[k];
      var named := row.(firstName := OrKeep(p.firstName, row.firstName), lastName := OrKeep(p.lastName, row.lastName));
      if Present(p.pesel) && p.pesel.value != row.pesel then
        if PeselUsedByOther(patients, p.pesel.value, userId) then BadRequest(PeselTaken)
        else if PeselUsed(patients - {k}, p.pesel.value) then
          var j :| j in patients - {k} && patients[j].pesel == p.pesel.value;
          assert patients[j].user == patients[k].user;
          ServerError
        else Ok(patients[k := named.(pesel := p.pesel.value)])
      else Ok(patients[k := named])
  }

  /** The doctor row after the patch: new names and specialty when given. */
  function PatchDoctors(doctors: map<int, Doctor>, userId: int, p: UserPatch): (r: map<int, Doctor>)
    ensures r.Keys == doctors.Keys
    ensures forall k :: k in doctors && doctors[k].user != Some(userId) ==> r[k] == doctors[k]
    ensures DoctorOf(doctors, userId).None? ==> r == doctors
    ensures DoctorOf(doctors, userId).Some? ==>
              var k := DoctorOf(doctors, userId).value;
              var row := doctors[k];
              r[k] == Doctor(OrKeep(p.firstName, row.firstName), OrKeep(p.lastName, row.lastName),
                             OrKeep(p.specialty, row.specialty), Some(userId))
  {
    match DoctorOf(doctors, userId)
    case None => doctors
    case Some(k) =>
      var row := doctors[k];
      doctors[k := row.(firstName := OrKeep(p.firstName, row.firstName), lastName := OrKeep(p.lastName, row.lastName),
                        specialty := OrKeep(p.specialty, row.specialty))]
  }

  /** UpdateUser: patch the account and carry the new names over to its
      patient and doctor rows. The e-mail is written directly, so the
      lookup key stays as it was. On a refusal nothing is saved. */
  function UpdateUser(db: Db, userId: int, p: UserPatch): (r: Outcome<Db>)
    ensures r.NotFound? <==> userId !in db.users
    ensures userId in db.users && EmailClash(db.users, userId, p) ==> r == BadRequest(EmailTaken)
    ensures userId in db.users && !EmailClash(db.users, userId, p) ==>
              && (PatchPatients(db.patients, userId, p).BadRequest? ==> r == BadRequest(PeselTaken))
              && (PatchPatients(db.patients, userId, p).ServerError? ==> r.ServerError?)
              && (r.Ok? <==> PatchPatients(db.patients, userId, p).Ok?)
    ensures r.Ok? ==>
              var u := db.users[userId];
              r.value.users == db.users[userId := User(OrKeep(p.email, u.email), u.emailKey, OrKeep(p.firstName, u.firstName),
                                                       OrKeep(p.lastName, u.lastName), u.role)]
    ensures r.Ok? ==> r.value.patients == PatchPatients(db.patients, userId, p).value
    ensures r.Ok? ==> r.value.doctors == PatchDoctors(db.doctors, userId, p)
    ensures r.Ok? ==> r.value == db.(users := r.value.users, patients := r.value.patients, doctors := r.value.doctors)
    ensures r.ServerError? ==> !OneRowEach(db.patients, PatientUser)
  {
    if userId !in db.users then NotFound
    else if EmailClash(db.users, userId, p) then BadRequest(EmailTaken)
    else
      var u := db.users[userId];
      var user := User(OrKeep(p.email, u.email), u.emailKey, OrKeep(p.firstName, u.firstName), OrKeep(p.lastName, u.lastName), u.role);
      match PatchPatients(db.patients, userId, p)
      case Ok(patients) =>
        Ok(db.(users := db.users[userId := user], patients := patients, doctors := PatchDoctors(db.doctors, userId, p)))
      case BadRequest(why) => BadRequest(why)
      case _ => ServerError
  }

  /** The account patch keeps the identity invariant. */
  lemma UpdateUserKeepsInv(db: Db, userId: int, p: UserPatch)
    requires IdentityInv(db) && UpdateUser(db, userId, p).Ok?
    ensures IdentityInv(UpdateUser(db, userId, p).value)
  {
    var n := UpdateUser(db, userId, p).value;
    var u := db.users[userId];
    assert n.users.Keys == db.users.Keys + {userId};
    assert forall k :: k in n.users ==> n.users[k].emailKey == db.users[k].emailKey;
    match PatientOf(db.patients, userId) {
      case None =>
      case Some(k) =>
        Relink(db.patients, PatientUser, db.users.Keys, k, n.patients[k]);
        assert n.patients == db.patients[k := n.patients[k]];
        forall a, b | a in n.patients && b in n.patients && a != b
          ensures n.patients[a].pesel != n.patients[b].pesel
        {
          if (a == k || b == k) && n.patients[k].pesel != db.patients[k].pesel {
            var other := if a == k then b else a;
            assert db.patients[other].user != Some(userId);
          }
        }
    }
    match DoctorOf(db.doctors, userId) {
      case None =>
      case Some(k) =>
        Relink(db.doctors, DoctorUser, db.users.Keys, k, n.doctors[k]);
        assert n.doctors == db.doctors[k := n.doctors[k]];
    }
  }

  /** Under the invariant the PESEL index never rejects an account patch. */
  lemma UpdateUserNoClash(db: Db, userId: int, p: UserPatch)
    requires IdentityInv(db)
    ensures !UpdateUser(db, userId, p).ServerError?
  {
  }

  /** After the administrator changes an account's e-mail to one no
      account is found by, the account still logs in with its old e-mail
      and not with the new one, and the new e-mail is free for anyone to
      register: two accounts then store the same e-mail. */
  lemma EmailChangeKeepsOldLookup(db: Db, userId: int, p: UserPatch, accepts: set<int>, now: Instant,
                                  e: Enrollment, later: Instant)
    requires EmailKeysUnique(db.users) && userId in db.users && userId in accepts
    requires UpdateUser(db, userId, p).Ok?
    requires Present(p.email) && p.email.value != db.users[userId].email
    requires e.email == p.email.value && e.role != PatientRole && e.role != DoctorRole
    ensures var n := UpdateUser(db, userId, p).value;
      && n.users[userId].email == p.email.value
      && Login(n, p.email.value, accepts, now) == BadRequest(BadCredentials)
      && Login(n, db.users[userId].emailKey, accepts, now).Ok?
      && Login(n, db.users[userId].emailKey, accepts, now).value.user == userId
      && Register(n, e, true, later).Ok?
      && var g := Register(n, e, true, later).value;
         g.id != userId && g.db.users[g.id].email == g.db.users[userId].email
  {
    var n := UpdateUser(db, userId, p).value;
    assert forall k :: k in n.users ==> n.users[k].emailKey == db.users[k].emailKey;
    assert EmailKeysUnique(n.users);
    LoginFindsAccount(n, userId, accepts, now);
  }

  /** DeleteUser: an administrator may not remove their own account
      (`caller` is the signed-in account, if any); otherwise the account
      goes with its patient and doctor rows. */
  function DeleteUser(db: Db, userId: int, caller: Option<int>): (r: Outcome<Db>)
    ensures caller == Some(userId) ==> r == BadRequest(OwnAccount)
    ensures caller != Some(userId) ==> (r.NotFound? <==> userId !in db.users)
    ensures r.Ok? <==> caller != Some(userId) && userId in db.users
    ensures r.Ok? ==> r.value.users == db.users - {userId}
    ensures r.Ok? ==> r.value == db.(users := r.value.users, patients := r.value.patients, doctors := r.value.doctors)
    ensures r.Ok? ==> forall k :: k in db.patients && db.patients[k].user != Some(userId) ==>
                        k in r.value.patients && r.value.patients[k] == db.patients[k]
    ensures r.Ok? ==> forall k :: k in db.doctors && db.doctors[k].user != Some(userId) ==>
                        k in r.value.doctors && r.value.doctors[k] == db.doctors[k]
    ensures r.Ok? ==> r.value.patients.Keys <= db.patients.Keys && r.value.doctors.Keys <= db.doctors.Keys
    ensures r.Ok? && PatientOf(db.patients, userId).Some? ==> PatientOf(db.patients, userId).value !in r.value.patients
    ensures r.Ok? && DoctorOf(db.doctors, userId).Some? ==> DoctorOf(db.doctors, userId).value !in r.value.doctors
  {
    if caller == Some(userId) then BadRequest(OwnAccount)
    else if userId !in db.users then NotFound
    else
      var patients := (match PatientOf(db.patients, userId)
        case Some(k) => db.patients - {k}
        case None => db.patients);
      var doctors := (match DoctorOf(db.doctors, userId)
        case Some(k) => db.doctors - {k}
        case None => db.doctors);
      Ok(db.(users := db.users - {userId}, patients := patients, doctors := doctors))
  }

  /** Removing an account keeps the identity invariant: with it go exactly
      the rows linked to it. */
  lemma DeleteUserKeepsInv(db: Db, userId: int, caller: Option<int>)
    requires IdentityInv(db) && DeleteUser(db, userId, caller).Ok?
    ensures IdentityInv(DeleteUser(db, userId, caller).value)
    ensures var n := DeleteUser(db, userId, caller).value;
      && (forall k :: k in n.patients ==> n.patients[k].user != Some(userId))
      && (forall k :: k in n.doctors ==> n.doctors[k].user != Some(userId))
  {
    var n := DeleteUser(db, userId, caller).value;
    var keys := db.users.Keys - {userId};
    assert n.users.Keys == keys;
    match PatientOf(db.patients, userId) {
      case None =>
        assert n.patients == db.patients;
        LinksShrink(db.patients, PatientUser, db.users.Keys, userId);
      case Some(k) =>
        Unlink(db.patients, PatientUser, db.users.Keys, k);
        assert n.patients == db.patients - {k};
        LinksShrink(n.patients, PatientUser, db.users.Keys, userId);
    }
    match DoctorOf(db.doctors, userId) {
      case None =>
        assert n.doctors == db.doctors;
        LinksShrink(db.doctors, DoctorUser, db.users.Keys, userId);
      case Some(k) =>
        Unlink(db.doctors, DoctorUser, db.users.Keys, k);
        assert n.doctors == db.doctors - {k};
        LinksShrink(n.doctors, DoctorUser, db.users.Keys, userId);
    }
  }
}

=== FILE: booking.dfy ===
/** How the visit handlers fit together: the lifecycle they implement,
    stated as a transition table, and the invariant that couples pending
    visits to the slots they hold. */
module Booking {
  import opened Common
  import opened Records
  import opened Slots
  import opened Visits

  /** The status-changing requests on an existing visit. */
  datatype Event = Accepting | Rejecting | Completing | Cancelling

  /** The visit lifecycle as a table: which status each request leads to,
      or None when the request is refused. Reservation and direct creation
      start a visit in Oczekujaca and Zaplanowana respectively. */
  function Next(s: Status, e: Event): Option<Status> {
    match (e, s)
    case (Cancelling, _) => Some(Anulowana)
    case (Accepting, Oczekujaca) => Some(Zaakceptowana)
    case (Rejecting, Oczekujaca) => Some(Odrzucona)
    case (Completing, Zaakceptowana) => Some(Odbyta)
    case _ => None
  }

  /** The handler that serves each request. */
  function Handle(db: Db, id: int, e: Event): Outcome<Db> {
    match e
    case Accepting => Accept(db, id)
    case Rejecting => Reject(db, id)
    case Completing => Complete(db, id)
    case Cancelling => Cancel(db, id)
  }

  /** Every handler follows the table: it succeeds exactly when the table
      has an entry, moves the visit to that status, leaves every other
      visit alone, and otherwise refuses with the store unchanged. */
  lemma HandlersFollowTable(db: Db, id: int, e: Event)
    requires id in db.visits
    ensures var r := Handle(db, id, e);
      && (r.Ok? <==> Next(db.visits[id].status, e).Some?)
      && (r.Ok? ==> r.value.visits == db.visits[id := db.visits[id].(status := Next(db.visits[id].status, e).value)])
      && (!r.Ok? ==> r.BadRequest?)
  {
  }

  /** Odbyta, Odrzucona and Anulowana are final: only cancellation, which
      the handler allows from any status, still applies to them. */
  lemma FinalStatuses(s: Status, e: Event)
    requires s == Odbyta || s == Odrzucona || s == Anulowana
    ensures Next(s, e).Some? <==> e == Cancelling
  {
  }

  /** The slot a pending visit holds: a taken slot of the same doctor
      starting at the visit's instant. */
  predicate Held(slots: map<int, Slot>, v: Visit) {
    exists k :: k in slots && slots[k].doctor == v.doctor && slots[k].start == v.data && !slots[k].available
  }

  predicate PendingHeld(db: Db) {
    forall id :: id in db.visits && db.visits[id].status == Oczekujaca ==> Held(db.slots, db.visits[id])
  }

  /** No two pending visits of one doctor at one instant. */
  predicate PendingDistinct(visits: map<int, Visit>) {
    forall a, b ::
      (a in visits && b in visits && a != b &&
       visits[a].status == Oczekujaca && visits[b].status == Oczekujaca &&
       visits[a].doctor == visits[b].doctor) ==> visits[a].data != visits[b].data
  }

  /** The booking invariant: slots are well formed, every pending visit
      holds its slot, and pending visits do not share a slot. It is what
      makes a rejection free the right slot. */
  predicate BookingInv(db: Db) {
    WellFormed(db.slots) && PendingHeld(db) && PendingDistinct(db.visits)
  }

  lemma ReserveKeepsInv(db: Db, patient: int, slot: int, now: Instant)
    requires BookingInv(db)
    requires Reserve(db, patient, slot, now).Ok?
    ensures BookingInv(Reserve(db, patient, slot, now).value.db)
  {
    var c := Reserve(db, patient, slot, now).value;
    var t := db.slots[slot];
    var n := c.db;
    FlipKeepsWellFormed(db.slots, slot, false);
    forall id | id in n.visits && n.visits[id].status == Oczekujaca
      ensures Held(n.slots, n.visits[id])
    {
      if id == c.id {
        assert n.slots[slot].doctor == t.doctor && n.slots[slot].start == t.start;
      } else {
        var k :| k in db.slots && db.slots[k].doctor == db.visits[id].doctor &&
                 db.slots[k].start == db.visits[id].data && !db.slots[k].available;
        assert n.slots[k] == db.slots[k];
      }
    }
    forall a, b | a in n.visits && b in n.visits && a != b &&
                  n.visits[a].status == Oczekujaca && n.visits[b].status == Oczekujaca &&
                  n.visits[a].doctor == n.visits[b].doctor
      ensures n.visits[a].data != n.visits[b].data
    {
      if (a == c.id || b == c.id) && n.visits[a].data == n.visits[b].data {
        assert false;
      }
    }
  }

  /** Moving a visit to any status but Oczekujaca keeps the invariant. */
  lemma LeavingPendingKeepsInv(db: Db, id: int, s: Status)
    requires BookingInv(db)
    requires id in db.visits && s != Oczekujaca
    ensures BookingInv(WithStatus(db, id, s))
  {
  }

  lemma AcceptKeepsInv(db: Db, id: int)
    requires BookingInv(db) && Accept(db, id).Ok?
    ensures BookingInv(Accept(db, id).value)
  {
    LeavingPendingKeepsInv(db, id, Zaakceptowana);
  }

  lemma CompleteKeepsInv(db: Db, id: int)
    requires BookingInv(db) && Complete(db, id).Ok?
    ensures BookingInv(Complete(db, id).value)
  {
    LeavingPendingKeepsInv(db, id, Odbyta);
  }

  lemma CancelKeepsInv(db: Db, id: int)
    requires BookingInv(db) && Cancel(db, id).Ok?
    ensures BookingInv(Cancel(db, id).value)
  {
    LeavingPendingKeepsInv(db, id, Anulowana);
  }

  /** Rejection frees the slot matched by doctor and instant; no other
      pending visit holds that slot, so they all keep theirs. */
  lemma RejectKeepsInv(db: Db, id: int)
    requires BookingInv(db) && Reject(db, id).Ok?
    ensures BookingInv(Reject(db, id).value)
  {
    var v := db.visits[id];
    var n := Reject(db, id).value;
    var m := MatchingSlot(db.slots, v.doctor, v.data);
    if m.Some? {
      FlipKeepsWellFormed(db.slots, m.value, true);
    }
    forall w | w in n.visits && n.visits[w].status == Oczekujaca
      ensures Held(n.slots, n.visits[w])
    {
      var k :| k in db.slots && db.slots[k].doctor == db.visits[w].doctor &&
               db.slots[k].start == db.visits[w].data && !db.slots[k].available;
      if m.Some? && k == m.value {
        assert false;
      }
      assert n.slots[k] == db.slots[k];
    }
  }

  lemma CreateVisitKeepsInv(db: Db, patient: int, doctor: int, data: Instant)
    requires BookingInv(db) && CreateVisit(db, patient, doctor, data).Ok?
    ensures BookingInv(CreateVisit(db, patient, doctor, data).value.db)
  {
  }

  lemma DeleteVisitKeepsInv(db: Db, id: int)
    requires BookingInv(db) && DeleteVisit(db, id).Ok?
    ensures BookingInv(DeleteVisit(db, id).value)
  {
    var n := DeleteVisit(db, id).value;
    assert forall w :: w in n.visits ==> w in db.visits && n.visits[w] == db.visits[w];
  }

  lemma CreateSlotKeepsInv(db: Db, doctor: int, start: Instant, end: Instant)
    requires BookingInv(db) && start < end && CreateSlot(db, doctor, start, end).Ok?
    ensures BookingInv(CreateSlot(db, doctor, start, end).value.db)
  {
    var c := CreateSlot(db, doctor, start, end).value;
    CreateKeepsWellFormed(db, doctor, start, end);
    forall w | w in c.db.visits && c.db.visits[w].status == Oczekujaca
      ensures Held(c.db.slots, c.db.visits[w])
    {
      var k :| k in db.slots && db.slots[k].doctor == db.visits[w].doctor &&
               db.slots[k].start == db.visits[w].data && !db.slots[k].available;
      assert c.db.slots[k] == db.slots[k];
    }
  }

  lemma BatchKeepsInv(db: Db, doctor: int, from: Instant, until: Instant, minutes: int)
    requires SliceEnds(from, until, minutes) && BookingInv(db) && doctor in db.doctors
    ensures BookingInv(CreateBatch(db, doctor, from, until, minutes).value.db)
  {
    var n := CreateBatch(db, doctor, from, until, minutes).value.db;
    BatchKeepsWellFormed(db, doctor, from, until, minutes);
    forall w | w in n.visits && n.visits[w].status == Oczekujaca
      ensures Held(n.slots, n.visits[w])
    {
      var k :| k in db.slots && db.slots[k].doctor == db.visits[w].doctor &&
               db.slots[k].start == db.visits[w].data && !db.slots[k].available;
      assert n.slots[k] == db.slots[k];
    }
  }

  /** Only a free slot can be deleted, and a pending visit's slot is taken. */
  lemma DeleteSlotKeepsInv(db: Db, id: int)
    requires BookingInv(db) && DeleteSlot(db, id).Ok?
    ensures BookingInv(DeleteSlot(db, id).value)
  {
    var n := DeleteSlot(db, id).value;
    forall w | w in n.visits && n.visits[w].status == Oczekujaca
      ensures Held(n.slots, n.visits[w])
    {
      var k :| k in db.slots && db.slots[k].doctor == db.visits[w].doctor &&
               db.slots[k].start == db.visits[w].data && !db.slots[k].available;
      assert k in n.slots;
    }
  }

  /** The admin patch can set a visit pending without any slot behind it,
      so it is the one visit handler that does not keep the invariant. */
  lemma UpdateMayBreakInv(db: Db)
    requires db.slots == map[] && db.doctors == map[]
    requires db.visits == map[1 := Visit(600, Zaplanowana, 2, 7)]
    ensures BookingInv(db)
    ensures var r := UpdateVisit(db, 1, VisitPatch(None, Some("Oczekująca"), None));
      r.Ok? && !BookingInv(r.value)
  {
    assert StatusName(Oczekujaca) == "Oczekująca";
    var n := UpdateVisit(db, 1, VisitPatch(None, Some("Oczekująca"), None)).value;
    assert n.visits[1].status == Oczekujaca;
    assert !Held(n.slots, n.visits[1]);
  }

  /** Slot creation never checks that a slot ends after it starts. An
      empty slot passes the overlap test, breaks the invariant, and lets a
      second slot of the same doctor start at the same instant; booking both
      leaves two pending visits of one doctor at one instant. */
  lemma EmptySlotMayBreakInv(db: Db, doctor: int, patient: int)
    requires doctor in db.doctors && patient in db.patients
    requires db.slots == map[] && db.visits == map[]
    ensures BookingInv(db)
    ensures var a := CreateSlot(db, doctor, 600, 600);
      && a.Ok? && !BookingInv(a.value.db)
      && var b := CreateSlot(a.value.db, doctor, 600, 630);
      && b.Ok? && b.value.id != a.value.id
      && b.value.db.slots[a.value.id].start == b.value.db.slots[b.value.id].start
      && var r1 := Reserve(b.value.db, patient, a.value.id, 0);
      && r1.Ok?
      && var r2 := Reserve(r1.value.db, patient, b.value.id, 0);
      && r2.Ok? && !PendingDistinct(r2.value.db.visits)
  {
    var a := CreateSlot(db, doctor, 600, 600).value;
    assert !WellFormed(a.db.slots) by {
      assert a.db.slots[a.id].start == a.db.slots[a.id].end;
    }
    assert !HasConflict(a.db.slots, doctor, 600, 630) by {
      forall k | k in a.db.slots
        ensures !Conflicts(a.db.slots[k], 600, 630)
      {
        assert k == a.id;
      }
    }
    var b := CreateSlot(a.db, doctor, 600, 630).value;
    var r1 := Reserve(b.db, patient, a.id, 0).value;
    assert r1.db.slots[b.id] == b.db.slots[b.id];
    var r2 := Reserve(r1.db, patient, b.id, 0).value;
    var vs := r2.db.visits;
    assert r1.id in vs && r2.id in vs && r1.id != r2.id;
    assert vs[r1.id] == Visit(600, Oczekujaca, patient, doctor);
    assert vs[r2.id] == Visit(600, Oczekujaca, patient, doctor);
  }

  /** Rejecting a fresh reservation gives the slot back: the slot table is
      exactly what it was before the booking, and the visit stays behind as
      Odrzucona. */
  lemma RejectUndoesReserve(db: Db, patient: int, slot: int, now: Instant)
    requires WellFormed(db.slots)
    requires Reserve(db, patient, slot, now).Ok?
    ensures var c := Reserve(db, patient, slot, now).value;
      var r := Reject(c.db, c.id);
      && r.Ok?
      && r.value.slots == db.slots
      && r.value.visits[c.id].status == Odrzucona
  {
    var c := Reserve(db, patient, slot, now).value;
    var t := db.slots[slot];
    FlipKeepsWellFormed(db.slots, slot, false);
    var m := MatchingSlot(c.db.slots, t.doctor, t.start);
    assert c.db.slots[slot].doctor == t.doctor && c.db.slots[slot].start == t.start;
    assert m == Some(slot);
    var back := c.db.slots[slot := c.db.slots[slot].(available := true)];
    assert forall k :: k in back <==> k in db.slots;
    assert forall k :: k in back ==> back[k] == db.slots[k];
    assert back == db.slots;
  }
}

=== FILE: common.dfy ===
/** Shared vocabulary of the clinic model: optional values, handler outcomes,
    the reasons a handler refuses a request, and key allocation. */
module Common {

  /** Instants are whole minutes on one clock; the handlers' `DateTime.Now`
      and `DateTime.UtcNow` become an explicit `now` of this type. */
  type Instant = int

  /** Twenty-four hours, the lifetime of a session token. */
  const SessionMinutes: int := 24 * 60

  datatype Option<+T> = None | Some(value: T) {
    function GetOr(default: T): T {
      match this
      case Some(v) => v
      case None => default
    }
  }

  /** Why a handler answered `400 Bad Request`. */
  datatype Reason =
    | PatientMissing      // "Pacjent o podanym ID nie istnieje"
    | DoctorMissing       // "Lekarz o podanym ID nie istnieje"
    | SlotMissing         // "Termin o podanym ID nie istnieje"
    | SlotTaken           // "Ten termin jest już zarezerwowany"
    | SlotInPast          // "Nie można zarezerwować terminu z przeszłości"
    | DoctorBusy          // "Lekarz jest zajęty w wybranym terminie"
    | UnknownStatus       // "Nieprawidłowy status"
    | NotPending          // only 'Oczekująca' visits may be accepted or rejected
    | NotAccepted         // only accepted visits may be completed
    | SlotOverlap         // "Termin nachodzi na inny istniejący termin"
    | SlotBooked          // "Nie można usunąć zarezerwowanego terminu"
    | VisitNotCompleted   // surveys only for visits that took place
    | AlreadyRated        // "Ta wizyta została już oceniona"
    | RatingOutOfRange    // "Ocena musi być w skali 1-5"
    | EmailTaken          // an account with this e-mail exists
    | PeselRequired       // patients need a PESEL
    | SpecialtyRequired   // doctors need a specialty
    | PeselTaken          // "Pacjent o podanym PESEL już istnieje"
    | AccountRejected     // the identity library refused to create the account
    | OwnAccount          // an admin may not delete their own account
    | BadCredentials      // "Nieprawidłowe dane logowania"

  /** The answer of one request handler. `ServerError` is the catch-all
      `500` a handler returns when it hits an exception. */
  datatype Outcome<+T> = Ok(value: T) | NotFound | BadRequest(reason: Reason) | ServerError

  /** `!string.IsNullOrEmpty(s)` for an optional request field. */
  predicate Present(s: Option<string>) {
    s.Some? && s.value != ""
  }

  /** A patch field overwrites the current value only when it is present
      and non-empty. */
  function OrKeep(s: Option<string>, current: string): string {
    if Present(s) then s.value else current
  }

  /** `m` is the largest element of `s`. */
  predicate IsMax(m: int, s: set<int>) {
    m in s && forall y :: y in s ==> y <= m
  }

  /** `m` is the smallest element of `s`. */
  predicate IsMin(m: int, s: set<int>) {
    m in s && forall y :: y in s ==> m <= y
  }

  lemma EmptyWithoutElements<T>(s: set<T>)
    requires forall y :: y !in s
    ensures s == {}
  {
    assert forall y :: y in s <==> y in {};
  }

  /** Some element of a non-empty set. */
  lemma Pick<T>(s: set<T>) returns (x: T)
    requires s != {}
    ensures x in s
  {
    if forall y :: y !in s {
      EmptyWithoutElements(s);
      assert false;
    }
    x :| x in s;
  }

  lemma {:induction false} MaxExists(s: set<int>)
    requires s != {}
    ensures exists m :: IsMax(m, s)
  {
    var x := Pick(s);
    if s != {x} {
      var rest := s - {x};
      MaxExists(rest);
      var m :| IsMax(m, rest);
      var top := if m < x then x else m;
      forall y | y in s
        ensures y <= top
      {
        if y != x { assert y in rest; }
      }
      assert IsMax(top, s);
    } else {
      assert IsMax(x, s);
    }
  }

  lemma {:induction false} MinExists(s: set<int>)
    requires s != {}
    ensures exists m :: IsMin(m, s)
  {
    var x := Pick(s);
    if s != {x} {
      var rest := s - {x};
      MinExists(rest);
      var m :| IsMin(m, rest);
      var low := if x < m then x else m;
      forall y | y in s
        ensures low <= y
      {
        if y != x { assert y in rest; }
      }
      assert IsMin(low, s);
    } else {
      assert IsMin(x, s);
    }
  }

  /** The largest element of a non-empty set. */
  function Max(s: set<int>): (m: int)
    requires s != {}
    ensures m in s && forall y :: y in s ==> y <= m
  {
    MaxExists(s);
    var m :| IsMax(m, s);
    m
  }

  /** The smallest element of a non-empty set: the row a `FirstOrDefault`
      without an ordering returns, read as "lowest key first". */
  function Min(s: set<int>): (m: int)
    requires s != {}
    ensures m in s && forall y :: y in s ==> m <= y
  {
    MinExists(s);
    var m :| IsMin(m, s);
    m
  }

  /** `FirstOrDefault` over a table without an ordering: the least key
      whose row satisfies `p`, or None when no row does. */
  function FirstWhere<T>(m: map<int, T>, p: T -> bool): (r: Option<int>)
    ensures r.Some? ==> r.value in m && p(m[r.value])
    ensures r.Some? ==> forall k :: k in m && p(m[k]) ==> r.value <= k
    ensures r.None? ==> forall k :: k in m ==> !p(m[k])
  {
    var ks := set k | k in m && p(m[k]);
    assert forall k :: k in m && p(m[k]) ==> k in ks;
    if ks == {} then None else Some(Min(ks))
  }

  /** The key the store gives a new row: one past the largest key in use. It
      stands for the database's auto-increment (and for the identity
      library's generated user id); all the model relies on is that it is
      positive and above every key already present. */
  function FreshKey<V>(m: map<int, V>): (k: int)
    ensures k > 0
    ensures forall j :: j in m ==> j < k
  {
    if m.Keys == {} then 1
    else
      var top := Max(m.Keys);
      if top < 0 then 1 else top + 1
  }
}

=== FILE: identity.dfy ===
/** Accounts and their role records: the lookups the account handlers
    share, the invariant that ties a user's role to a Pacjent or Lekarz
    row, and the enrollment both Register and the admin's CreateUser run. */
module Identity {
  import opened Common
  import opened Records

  const PatientRole: string := "Patient"
  const DoctorRole: string := "Doctor"

  /** `FindByEmailAsync`: the account whose lookup key is this e-mail, if
      any. The key, not the stored e-mail, is what is searched. */
  function UserByEmail(users: map<int, User>, email: string): (r: Option<int>)
    ensures r.Some? ==> r.value in users && users[r.value].emailKey == email
    ensures r.None? ==> forall k :: k in users ==> users[k].emailKey != email
  {
    FirstWhere(users, (u: User) => u.emailKey == email)
  }

  /** The `user.Pacjent` navigation: the patient row linked to the account. */
  function PatientOf(patients: map<int, Patient>, user: int): (r: Option<int>)
    ensures r.Some? ==> r.value in patients && patients[r.value].user == Some(user)
    ensures r.None? ==> forall k :: k in patients ==> patients[k].user != Some(user)
  {
    FirstWhere(patients, (p: Patient) => p.user == Some(user))
  }

  /** The `user.Lekarz` navigation: the doctor row linked to the account. */
  function DoctorOf(doctors: map<int, Doctor>, user: int): (r: Option<int>)
    ensures r.Some? ==> r.value in doctors && doctors[r.value].user == Some(user)
    ensures r.None? ==> forall k :: k in doctors ==> doctors[k].user != Some(user)
  {
    FirstWhere(doctors, (d: Doctor) => d.user == Some(user))
  }

  predicate PeselUsed(patients: map<int, Patient>, pesel: string) {
    exists k :: k in patients && patients[k].pesel == pesel
  }

  /** Some patient row not linked to `user` carries the PESEL. */
  predicate PeselUsedByOther(patients: map<int, Patient>, pesel: string, user: int) {
    exists k :: k in patients && patients[k].pesel == pesel && patients[k].user != Some(user)
  }

  function PatientUser(p: Patient): Option<int> { p.user }
  function DoctorUser(d: Doctor): Option<int> { d.user }

  /** Some row of `rows` is linked to account `u`. */
  predicate Linked<T>(rows: map<int, T>, link: T -> Option<int>, u: int) {
    exists k :: k in rows && link(rows[k]) == Some(u)
  }

  /** Each account has at most one linked row, and every linked row
      belongs to an account in `users`. */
  predicate Links<T>(rows: map<int, T>, link: T -> Option<int>, users: set<int>) {
    && OneRowEach(rows, link)
    && (forall k :: k in rows && link(rows[k]).Some? ==> link(rows[k]).value in users)
  }

  /** No two rows are linked to the same account. */
  predicate OneRowEach<T>(rows: map<int, T>, link: T -> Option<int>) {
    forall a, b :: a in rows && b in rows && a != b && link(rows[a]).Some? ==> link(rows[a]) != link(rows[b])
  }

  predicate HasPatient(patients: map<int, Patient>, user: int) {
    Linked(patients, PatientUser, user)
  }

  predicate HasDoctor(doctors: map<int, Doctor>, user: int) {
    Linked(doctors, DoctorUser, user)
  }

  /** No two accounts share an e-mail lookup key. */
  predicate EmailKeysUnique(users: map<int, User>) {
    forall a, b :: a in users && b in users && a != b ==> users[a].emailKey != users[b].emailKey
  }

  /** The unique index on the PESEL column. */
  predicate PeselsUnique(patients: map<int, Patient>) {
    forall a, b :: a in patients && b in patients && a != b ==> patients[a].pesel != patients[b].pesel
  }

  /** An account has a patient row exactly when its role is Patient and a
      doctor row exactly when its role is Doctor; no account has two rows
      of a kind; every linked row belongs to an existing account. */
  predicate RoleRecords(db: Db) {
    PatientRows(db) && DoctorRows(db)
  }

  /** Adding a row linked to an account that has no row yet. */
  lemma LinkNew<T>(rows: map<int, T>, link: T -> Option<int>, users: set<int>, k: int, row: T, id: int)
    requires Links(rows, link, users) && k !in rows && !Linked(rows, link, id) && link(row) == Some(id)
    ensures Links(rows[k := row], link, users + {id})
    ensures Linked(rows[k := row], link, id)
    ensures forall u :: u != id ==> (Linked(rows[k := row], link, u) <==> Linked(rows, link, u))
  {
    var n := rows[k := row];
    forall u | u != id && Linked(n, link, u)
      ensures Linked(rows, link, u)
    {
      var j :| j in n && link(n[j]) == Some(u);
      assert j != k && rows[j] == n[j];
    }
    forall u | Linked(rows, link, u)
      ensures Linked(n, link, u)
    {
      var j :| j in rows && link(rows[j]) == Some(u);
      assert j != k && n[j] == rows[j];
    }
    forall a, b | a in n && b in n && a != b && link(n[a]).Some?
      ensures link(n[a]) != link(n[b])
    {
      if a == k {
        assert !(b in rows && link(rows[b]) == Some(id));
      } else if b == k {
        assert !(a in rows && link(rows[a]) == Some(id));
      }
    }
    assert n[k] == row;
  }

  /** The rows stay valid for a larger set of accounts. */
  lemma LinksGrow<T>(rows: map<int, T>, link: T -> Option<int>, users: set<int>, more: set<int>)
    requires Links(rows, link, users) && users <= more
    ensures Links(rows, link, more)
  {
  }

  /** Removing a row unlinks its account and no other. */
  lemma Unlink<T>(rows: map<int, T>, link: T -> Option<int>, users: set<int>, k: int)
    requires Links(rows, link, users) && k in rows
    ensures Links(rows - {k}, link, users)
    ensures link(rows[k]).Some? ==> !Linked(rows - {k}, link, link(rows[k]).value)
    ensures forall u :: Some(u) != link(rows[k]) ==> (Linked(rows - {k}, link, u) <==> Linked(rows, link, u))
  {
    var n := rows - {k};
    forall u | Some(u) != link(rows[k]) && Linked(rows, link, u)
      ensures Linked(n, link, u)
    {
      var j :| j in rows && link(rows[j]) == Some(u);
      assert j in n;
    }
  }

  /** Rewriting a row without changing its link. */
  lemma Relink<T>(rows: map<int, T>, link: T -> Option<int>, users: set<int>, k: int, row: T)
    requires Links(rows, link, users) && k in rows && link(row) == link(rows[k])
    ensures Links(rows[k := row], link, users)
    ensures forall u :: Linked(rows[k := row], link, u) <==> Linked(rows, link, u)
  {
    var n := rows[k := row];
    forall u | Linked(n, link, u)
      ensures Linked(rows, link, u)
    {
      var j :| j in n && link(n[j]) == Some(u);
      assert link(rows[j]) == Some(u);
    }
    forall u | Linked(rows, link, u)
      ensures Linked(n, link, u)
    {
      var j :| j in rows && link(rows[j]) == Some(u);
      assert link(n[j]) == Some(u);
    }
  }

  /** An account without linked rows can go. */
  lemma LinksShrink<T>(rows: map<int, T>, link: T -> Option<int>, users: set<int>, u: int)
    requires Links(rows, link, users) && !Linked(rows, link, u)
    ensures Links(rows, link, users - {u})
  {
  }

  predicate IdentityInv(db: Db) {
    EmailKeysUnique(db.users) && PeselsUnique(db.patients) && RoleRecords(db)
  }

  /** The fields of a new account, as Register and CreateUser receive them. */
  datatype Enrollment = Enrollment(
    email: string,
    firstName: string,
    lastName: string,
    role: string,
    pesel: Option<string>,
    specialty: Option<string>
  )

  /** The request is refused before any account is made: the e-mail is
      taken, a patient lacks a PESEL, a doctor lacks a specialty, or a
      patient's PESEL is taken, checked in that order. */
  function EnrollmentError(db: Db, e: Enrollment): (r: Option<Reason>)
    ensures r.None? <==>
      && UserByEmail(db.users, e.email).None?
      && (e.role == PatientRole ==> Present(e.pesel) && !PeselUsed(db.patients, e.pesel.value))
      && (e.role == DoctorRole ==> Present(e.specialty))
  {
    if UserByEmail(db.users, e.email).Some? then Some(EmailTaken)
    else if e.role == PatientRole && !Present(e.pesel) then Some(PeselRequired)
    else if e.role == DoctorRole && !Present(e.specialty) then Some(SpecialtyRequired)
    else if e.role == PatientRole && PeselUsed(db.patients, e.pesel.value) then Some(PeselTaken)
    else None
  }

  /** Create the account and, for a patient or a doctor, its role row.
      `accepted` is the identity library's verdict on the account (the
      password policy among others), which the model does not see. The role
      is stored as given. */
  function Enroll(db: Db, e: Enrollment, accepted: bool): (r: Outcome<Created>)
    ensures EnrollmentError(db, e).Some? ==> r == BadRequest(EnrollmentError(db, e).value)
    ensures EnrollmentError(db, e).None? && !accepted ==> r == BadRequest(AccountRejected)
    ensures r.Ok? <==> EnrollmentError(db, e).None? && accepted
    ensures r.Ok? ==> r.value.id !in db.users
    ensures r.Ok? ==> r.value.db.users == db.users[r.value.id := User(e.email, e.email, e.firstName, e.lastName, e.role)]
    ensures r.Ok? ==> r.value.db == db.(users := r.value.db.users, patients := r.value.db.patients,
                                        doctors := r.value.db.doctors)
    ensures r.Ok? && e.role == PatientRole ==>
              && r.value.db.doctors == db.doctors
              && r.value.db.patients ==
                   db.patients[FreshKey(db.patients) := Patient(e.firstName, e.lastName, e.pesel.value, Some(r.value.id))]
    ensures r.Ok? && e.role == DoctorRole ==>
              && r.value.db.patients == db.patients
              && r.value.db.doctors ==
                   db.doctors[FreshKey(db.doctors) := Doctor(e.firstName, e.lastName, e.specialty.value, Some(r.value.id))]
    ensures r.Ok? && e.role != PatientRole && e.role != DoctorRole ==>
              r.value.db.patients == db.patients && r.value.db.doctors == db.doctors
  {
    match EnrollmentError(db, e)
    case Some(why) => BadRequest(why)
    case None =>
      if !accepted then BadRequest(AccountRejected)
      else
        var id := FreshKey(db.users);
        var db1 := db.(users := db.users[id := User(e.email, e.email, e.firstName, e.lastName, e.role)]);
        if e.role == PatientRole then
          var k := FreshKey(db.patients);
          Ok(Created(db1.(patients := db.patients[k := Patient(e.firstName, e.lastName, e.pesel.value, Some(id))]), id))
        else if e.role == DoctorRole then
          var k := FreshKey(db.doctors);
          Ok(Created(db1.(doctors := db.doctors[k := Doctor(e.firstName, e.lastName, e.specialty.value, Some(id))]), id))
        else Ok(Created(db1, id))
  }

  /** Enrollment keeps the identity invariant. */
  lemma EnrollKeepsInv(db: Db, e: Enrollment, accepted: bool)
    requires IdentityInv(db) && Enroll(db, e, accepted).Ok?
    ensures IdentityInv(Enroll(db, e, accepted).value.db)
  {
    var c := Enroll(db, e, accepted).value;
    assert forall k :: k in db.users ==> db.users[k].emailKey != e.email;
    EnrollKeepsPesels(db, e, accepted);
    EnrollKeepsRoleRecords(db, e, accepted);
  }

  lemma EnrollKeepsPesels(db: Db, e: Enrollment, accepted: bool)
    requires PeselsUnique(db.patients) && Enroll(db, e, accepted).Ok?
    ensures PeselsUnique(Enroll(db, e, accepted).value.db.patients)
  {
    if e.role == PatientRole {
      assert !PeselUsed(db.patients, e.pesel.value);
    }
  }

  lemma EnrollKeepsRoleRecords(db: Db, e: Enrollment, accepted: bool)
    requires RoleRecords(db) && Enroll(db, e, accepted).Ok?
    ensures RoleRecords(Enroll(db, e, accepted).value.db)
  {
    EnrollKeepsPatientRows(db, e, accepted);
    EnrollKeepsDoctorRows(db, e, accepted);
  }

  /** The patient half of the role invariant for the account tables. */
  predicate PatientRows(db: Db) {
    && Links(db.patients, PatientUser, db.users.Keys)
    && (forall u :: u in db.users ==> (HasPatient(db.patients, u) <==> db.users[u].role == PatientRole))
  }

  /** The doctor half. */
  predicate DoctorRows(db: Db) {
    && Links(db.doctors, DoctorUser, db.users.Keys)
    && (forall u :: u in db.users ==> (HasDoctor(db.doctors, u) <==> db.users[u].role == DoctorRole))
  }

  lemma EnrollKeepsPatientRows(db: Db, e: Enrollment, accepted: bool)
    requires PatientRows(db) && Enroll(db, e, accepted).Ok?
    ensures PatientRows(Enroll(db, e, accepted).value.db)
  {
    var c := Enroll(db, e, accepted).value;
    var n := c.db;
    var id := c.id;
    assert n.users.Keys == db.users.Keys + {id};
    assert !HasPatient(db.patients, id);
    if e.role == PatientRole {
      LinkNew(db.patients, PatientUser, db.users.Keys, FreshKey(db.patients), n.patients[FreshKey(db.patients)], id);
    } else {
      assert n.patients == db.patients;
      LinksGrow(db.patients, PatientUser, db.users.Keys, n.users.Keys);
      assert !HasPatient(db.patients, id);
    }
  }

  lemma EnrollKeepsDoctorRows(db: Db, e: Enrollment, accepted: bool)
    requires DoctorRows(db) && Enroll(db, e, accepted).Ok?
    ensures DoctorRows(Enroll(db, e, accepted).value.db)
  {
    var c := Enroll(db, e, accepted).value;
    var n := c.db;
    var id := c.id;
    assert n.users.Keys == db.users.Keys + {id};
    assert !HasDoctor(db.doctors, id);
    if e.role == DoctorRole {
      LinkNew(db.doctors, DoctorUser, db.users.Keys, FreshKey(db.doctors), n.doctors[FreshKey(db.doctors)], id);
    } else {
      assert n.doctors == db.doctors;
      LinksGrow(db.doctors, DoctorUser, db.users.Keys, n.users.Keys);
      assert !HasDoctor(db.doctors, id);
    }
  }
}

=== FILE: listing.dfy ===
/** The read side of the slot and visit handlers: filter a table, then
    order the survivors by an instant (`Where` followed by `OrderBy`). */
module Listing {
  import opened Common
  import opened Records

  predicate Distinct(ks: seq<int>) {
    forall i, j :: 0 <= i < j < |ks| ==> ks[i] != ks[j]
  }

  /** `ks` are keys of `m`, in non-decreasing order of `key`. */
  predicate SortedBy<T>(m: map<int, T>, ks: seq<int>, key: T -> int) {
    && (forall i :: 0 <= i < |ks| ==> ks[i] in m)
    && (forall i, j :: 0 <= i < j < |ks| ==> key(m[ks[i]]) <= key(m[ks[j]]))
  }

  /** Put key `k` into the ordered list `ks` before the first entry whose
      row does not come before `k`'s row. */
  function Insert<T>(m: map<int, T>, ks: seq<int>, k: int, key: T -> int): (r: seq<int>)
    requires k in m && SortedBy(m, ks, key)
    ensures |r| == |ks| + 1
    ensures forall x :: x in r <==> x in ks || x == k
    ensures SortedBy(m, r, key)
  {
    if ks == [] then [k]
    else if key(m[k]) <= key(m[ks[0]]) then [k] + ks
    else
      var rest := Insert(m, ks[1..], k, key);
      assert forall x :: x in ks ==> x == ks[0] || x in ks[1..];
      assert forall i :: 0 <= i < |rest| ==> rest[i] in rest;
      [ks[0]] + rest
  }

  /** Inserting a new key into a list without repeats gives a list without
      repeats. */
  lemma {:induction false} InsertDistinct<T>(m: map<int, T>, ks: seq<int>, k: int, key: T -> int)
    requires k in m && SortedBy(m, ks, key)
    requires Distinct(ks) && k !in ks
    ensures Distinct(Insert(m, ks, k, key))
  {
    if ks != [] && key(m[k]) > key(m[ks[0]]) {
      var tail := ks[1..];
      assert SortedBy(m, tail, key);
      assert Distinct(tail);
      assert k !in tail;
      InsertDistinct(m, tail, k, key);
      var rest := Insert(m, tail, k, key);
      assert ks[0] !in tail;
      assert ks[0] !in rest;
      var r := [ks[0]] + rest;
      forall i, j | 0 <= i < j < |r|
        ensures r[i] != r[j]
      {
        if i > 0 { assert r[i] == rest[i - 1]; }
        assert r[j] == rest[j - 1];
      }
    }
  }

  /** Keys of the rows of `m` that `keep` selects, each once, in
      non-decreasing order of `key`. */
  method Select<T>(m: map<int, T>, keep: T -> bool, key: T -> int) returns (r: seq<int>)
    ensures forall k :: k in r <==> k in m && keep(m[k])
    ensures Distinct(r)
    ensures SortedBy(m, r, key)
  {
    var rest := m.Keys;
    r := [];
    while rest != {}
      invariant rest <= m.Keys
      invariant forall k :: k in r <==> k in m && keep(m[k]) && k !in rest
      invariant Distinct(r)
      invariant SortedBy(m, r, key)
      decreases |rest|
    {
      assert exists k :: k in rest by {
        var w := Pick(rest);  // the witness the choice below needs
      }
      var k :| k in rest;
      if keep(m[k]) {
        InsertDistinct(m, r, k, key);
        r := Insert(m, r, k, key);
      }
      rest := rest - {k};
    }
  }

  /** GetTerminy: the free slots that start after `now`, earliest first. */
  method AvailableSlots(db: Db, now: Instant) returns (ids: seq<int>)
    ensures forall k :: k in ids <==> k in db.slots && db.slots[k].available && db.slots[k].start > now
    ensures Distinct(ids)
    ensures forall i :: 0 <= i < |ids| ==> ids[i] in db.slots
    ensures forall i, j :: 0 <= i < j < |ids| ==> db.slots[ids[i]].start <= db.slots[ids[j]].start
  {
    ids := Select(db.slots, (t: Slot) => t.available && t.start > now, (t: Slot) => t.start);
  }

  /** GetTerminyByLekarz: the doctor's slots, earliest first; with
      `onlyAvailable` just the free future ones, otherwise all of them. */
  method DoctorSlots(db: Db, doctor: int, onlyAvailable: bool, now: Instant) returns (ids: seq<int>)
    ensures forall k :: k in ids <==>
              k in db.slots && db.slots[k].doctor == doctor &&
              (onlyAvailable ==> db.slots[k].available && db.slots[k].start > now)
    ensures Distinct(ids)
    ensures forall i :: 0 <= i < |ids| ==> ids[i] in db.slots
    ensures forall i, j :: 0 <= i < j < |ids| ==> db.slots[ids[i]].start <= db.slots[ids[j]].start
  {
    ids := Select(db.slots, (t: Slot) => t.doctor == doctor && (!onlyAvailable || (t.available && t.start > now)),
                  (t: Slot) => t.start);
  }

  /** GetOczekujaceWizyty: the doctor's pending visits, earliest first. */
  method PendingVisits(db: Db, doctor: int) returns (ids: seq<int>)
    ensures forall k :: k in ids <==> k in db.visits && db.visits[k].doctor == doctor && db.visits[k].status == Oczekujaca
    ensures Distinct(ids)
    ensures forall i :: 0 <= i < |ids| ==> ids[i] in db.visits
    ensures forall i, j :: 0 <= i < j < |ids| ==> db.visits[ids[i]].data <= db.visits[ids[j]].data
  {
    ids := Select(db.visits, (v: Visit) => v.doctor == doctor && v.status == Oczekujaca, (v: Visit) => v.data);
  }
}

=== FILE: patients.dfy ===
/** PacjentController: patient rows managed directly, outside the account
    handlers. Such rows are created without an account. */
module Patients {
  import opened Common
  import opened Records
  import opened Identity

  /** GetPacjentByPesel: the first row carrying the PESEL. */
  function PatientByPesel(db: Db, pesel: string): (r: Outcome<int>)
    ensures r.Ok? || r.NotFound?
    ensures r.NotFound? <==> !PeselUsed(db.patients, pesel)
    ensures r.Ok? ==> r.value in db.patients && db.patients[r.value].pesel == pesel
  {
    match FirstWhere(db.patients, (p: Patient) => p.pesel == pesel)
    case Some(k) => Ok(k)
    case None => NotFound
  }

  /** With the PESEL index in place the lookup finds the one row that
      carries the PESEL. */
  lemma PeselFindsRow(db: Db, k: int)
    requires PeselsUnique(db.patients) && k in db.patients
    ensures PatientByPesel(db, db.patients[k].pesel) == Ok(k)
  {
  }

  /** CreatePacjent: refused when the PESEL is taken; otherwise a row
      without an account. */
  function CreatePatient(db: Db, firstName: string, lastName: string, pesel: string): (r: Outcome<Created>)
    ensures r.Ok? <==> !PeselUsed(db.patients, pesel)
    ensures !r.Ok? ==> r == BadRequest(PeselTaken)
    ensures r.Ok? ==> r.value.id !in db.patients
    ensures r.Ok? ==> r.value.db == db.(patients := db.patients[r.value.id := Patient(firstName, lastName, pesel, None)])
  {
    if PeselUsed(db.patients, pesel) then BadRequest(PeselTaken)
    else
      var id := FreshKey(db.patients);
      Ok(Created(db.(patients := db.patients[id := Patient(firstName, lastName, pesel, None)]), id))
  }

  /** A created patient is found by its PESEL. */
  lemma CreateThenFind(db: Db, firstName: string, lastName: string, pesel: string)
    requires CreatePatient(db, firstName, lastName, pesel).Ok?
    ensures var c := CreatePatient(db, firstName, lastName, pesel).value;
      PatientByPesel(c.db, pesel) == Ok(c.id)
  {
    var c := CreatePatient(db, firstName, lastName, pesel).value;
    assert forall k :: k in db.patients ==> db.patients[k].pesel != pesel;
    assert c.db.patients[c.id].pesel == pesel;
  }

  /** UpdatePacjent: the names change when given; PESEL and account link
      stay. */
  function UpdatePatient(db: Db, id: int, firstName: Option<string>, lastName: Option<string>): (r: Outcome<Db>)
    ensures r.Ok? || r.NotFound?
    ensures r.NotFound? <==> id !in db.patients
    ensures r.Ok? ==> r.value.patients.Keys == db.patients.Keys
    ensures r.Ok? ==> forall k :: k in db.patients && k != id ==> r.value.patients[k] == db.patients[k]
    ensures r.Ok? ==> r.value.patients[id].pesel == db.patients[id].pesel && r.value.patients[id].user == db.patients[id].user
    ensures r.Ok? ==> r.value.patients[id].firstName == OrKeep(firstName, db.patients[id].firstName)
    ensures r.Ok? ==> r.value.patients[id].lastName == OrKeep(lastName, db.patients[id].lastName)
    ensures r.Ok? ==> r.value == db.(patients := r.value.patients)
  {
    if id !in db.patients then NotFound
    else
      var p := db.patients[id];
      Ok(db.(patients := db.patients[id := p.(firstName := OrKeep(firstName, p.firstName), lastName := OrKeep(lastName, p.lastName))]))
  }

  /** DeletePacjent: exactly that row goes. */
  function DeletePatient(db: Db, id: int): (r: Outcome<Db>)
    ensures r.Ok? || r.NotFound?
    ensures r.NotFound? <==> id !in db.patients
    ensures r.Ok? ==> r.value == db.(patients := r.value.patients)
    ensures r.Ok? ==> r.value.patients.Keys == db.patients.Keys - {id}
    ensures r.Ok? ==> forall k :: k in r.value.patients ==> r.value.patients[k] == db.patients[k]
  {
    if id !in db.patients then NotFound else Ok(db.(patients := db.patients - {id}))
  }

  /** Deleting a freshly created patient restores the store. */
  lemma DeleteUndoesCreate(db: Db, firstName: string, lastName: string, pesel: string)
    requires CreatePatient(db, firstName, lastName, pesel).Ok?
    ensures var c := CreatePatient(db, firstName, lastName, pesel).value;
      DeletePatient(c.db, c.id) == Ok(db)
  {
    var c := CreatePatient(db, firstName, lastName, pesel).value;
    var back := c.db.patients - {c.id};
    assert forall k :: k in back <==> k in db.patients;
    assert back == db.patients;
  }

  /** Creating and renaming patients keep the identity invariant: new rows
      have no account, and renaming touches neither PESEL nor link. */
  lemma CreatePatientKeepsInv(db: Db, firstName: string, lastName: string, pesel: string)
    requires IdentityInv(db) && CreatePatient(db, firstName, lastName, pesel).Ok?
    ensures IdentityInv(CreatePatient(db, firstName, lastName, pesel).value.db)
  {
    var c := CreatePatient(db, firstName, lastName, pesel).value;
    forall u | HasPatient(c.db.patients, u)
      ensures HasPatient(db.patients, u)
    {
      var j :| j in c.db.patients && PatientUser(c.db.patients[j]) == Some(u);
      assert j != c.id;
    }
    forall u | HasPatient(db.patients, u)
      ensures HasPatient(c.db.patients, u)
    {
      var j :| j in db.patients && PatientUser(db.patients[j]) == Some(u);
      assert c.db.patients[j] == db.patients[j];
    }
  }

  lemma UpdatePatientKeepsInv(db: Db, id: int, firstName: Option<string>, lastName: Option<string>)
    requires IdentityInv(db) && UpdatePatient(db, id, firstName, lastName).Ok?
    ensures IdentityInv(UpdatePatient(db, id, firstName, lastName).value)
  {
    var n := UpdatePatient(db, id, firstName, lastName).value;
    Relink(db.patients, PatientUser, db.users.Keys, id, n.patients[id]);
    assert n.patients == db.patients[id := n.patients[id]];
  }

  /** Deleting the patient row of a Patient account leaves the account
      without its record: the handler does not keep the role invariant. */
  lemma DeletePatientOrphansAccount(db: Db)
    requires db.users == map[1 := User("anna@example.com", "anna@example.com", "Anna", "Nowak", PatientRole)]
    requires db.patients == map[5 := Patient("Anna", "Nowak", "90010112345", Some(1))]
    requires db.doctors == map[]
    ensures IdentityInv(db)
    ensures DeletePatient(db, 5).Ok? && !IdentityInv(DeletePatient(db, 5).value)
  {
    assert HasPatient(db.patients, 1) by {
      assert PatientUser(db.patients[5]) == Some(1);
    }
    assert !HasDoctor(db.doctors, 1);
  }
}

=== FILE: ratings.dfy ===
/** GetOcenyLekarza: the number of ratings a doctor has received and their
    mean, computed from the surveys that name the doctor and carry a
    rating. The mean is reported as the pair (count, sum); rounding to two
    places is not modelled. */
module Ratings {
  import opened Common
  import opened Records
  import opened Surveys

  /** A survey enters the doctor's aggregate. */
  predicate Counts(s: Survey, doctor: int) {
    s.doctor == Some(doctor) && s.rating.Some?
  }

  /** The keys of the surveys that enter the doctor's aggregate. */
  function RatedKeys(surveys: map<int, Survey>, doctor: int): set<int> {
    set k | k in surveys && Counts(surveys[k], doctor)
  }

  /** The sum of the ratings stored under the keys `ks` (a missing rating
      counts as 0, as in the handler's average). */
  function SumOver(surveys: map<int, Survey>, ks: set<int>): int
    requires ks <= surveys.Keys
    decreases |ks|
  {
    if ks == {} then 0
    else
      var k := Min(ks);
      surveys[k].rating.GetOr(0) + SumOver(surveys, ks - {k})
  }

  /** The sum does not depend on which element is taken out first. */
  lemma {:induction false} SumRemove(surveys: map<int, Survey>, ks: set<int>, k: int)
    requires ks <= surveys.Keys && k in ks
    ensures SumOver(surveys, ks) == surveys[k].rating.GetOr(0) + SumOver(surveys, ks - {k})
    decreases |ks|
  {
    var m := Min(ks);
    if m != k {
      SumRemove(surveys, ks - {m}, k);
      SumRemove(surveys, ks - {k}, m);
      assert ks - {m} - {k} == ks - {k} - {m};
    }
  }

  /** Changing a survey outside `ks` does not change the sum over `ks`. */
  lemma {:induction false} SumFrame(surveys: map<int, Survey>, ks: set<int>, id: int, s: Survey)
    requires ks <= surveys.Keys && id !in ks
    ensures SumOver(surveys[id := s], ks) == SumOver(surveys, ks)
    decreases |ks|
  {
    if ks != {} {
      SumFrame(surveys, ks - {Min(ks)}, id, s);
    }
  }

  /** The doctor's aggregate: how many surveys count and the sum of their
      ratings. */
  method DoctorRatings(surveys: map<int, Survey>, doctor: int) returns (count: nat, sum: int)
    ensures count == |RatedKeys(surveys, doctor)|
    ensures sum == SumOver(surveys, RatedKeys(surveys, doctor))
  {
    var rest := surveys.Keys;
    count, sum := 0, 0;
    ghost var seen: set<int> := {};
    while rest != {}
      invariant rest <= surveys.Keys && seen <= surveys.Keys
      invariant forall k :: k in seen <==> k in surveys && Counts(surveys[k], doctor) && k !in rest
      invariant count == |seen| && sum == SumOver(surveys, seen)
      decreases |rest|
    {
      assert exists k :: k in rest by {
        var w := Pick(rest);  // the witness the choice below needs
      }
      var k :| k in rest;
      if Counts(surveys[k], doctor) {
        assert k !in seen;
        SumRemove(surveys, seen + {k}, k);
        assert seen + {k} - {k} == seen;
        seen := seen + {k};
        count := count + 1;
        sum := sum + surveys[k].rating.value;
      }
      rest := rest - {k};
    }
    assert forall k :: k in seen <==> k in RatedKeys(surveys, doctor);
    assert seen == RatedKeys(surveys, doctor);
  }

  /** The mean rating the handler reports before rounding: 0 without
      ratings, otherwise the sum over the count. */
  function Mean(count: nat, sum: int): (m: real)
    ensures count == 0 ==> m == 0.0
    ensures count > 0 ==> m * (count as real) == sum as real
  {
    if count == 0 then 0.0 else (sum as real) / (count as real)
  }

  /** Storing a new survey that counts for `doctor` adds one to the
      doctor's count and its rating to the doctor's sum. */
  lemma {:induction false} AddCounted(surveys: map<int, Survey>, id: int, s: Survey, doctor: int)
    requires id !in surveys && Counts(s, doctor)
    ensures RatedKeys(surveys[id := s], doctor) == RatedKeys(surveys, doctor) + {id}
    ensures SumOver(surveys[id := s], RatedKeys(surveys[id := s], doctor)) ==
              SumOver(surveys, RatedKeys(surveys, doctor)) + s.rating.value
  {
    var n := surveys[id := s];
    var before := RatedKeys(surveys, doctor);
    var after := RatedKeys(n, doctor);
    assert forall k :: k in after <==> k in before || k == id;
    assert after == before + {id};
    SumRemove(n, after, id);
    assert after - {id} == before;
    SumFrame(surveys, before, id, s);
  }

  /** Storing a survey that does not count for `doctor` leaves the
      doctor's aggregate as it was. */
  lemma {:induction false} AddUncounted(surveys: map<int, Survey>, id: int, s: Survey, doctor: int)
    requires id !in surveys && !Counts(s, doctor)
    ensures RatedKeys(surveys[id := s], doctor) == RatedKeys(surveys, doctor)
    ensures SumOver(surveys[id := s], RatedKeys(surveys[id := s], doctor)) ==
              SumOver(surveys, RatedKeys(surveys, doctor))
  {
    var before := RatedKeys(surveys, doctor);
    assert forall k :: k in RatedKeys(surveys[id := s], doctor) <==> k in before;
    assert RatedKeys(surveys[id := s], doctor) == before;
    SumFrame(surveys, before, id, s);
  }

  /** A named rating adds exactly one rating to the rated doctor's
      aggregate and leaves every other doctor's aggregate alone. */
  lemma RatingUpdatesAggregate(db: Db, q: RatingRequest, now: Instant, doctor: int)
    requires RateVisit(db, q, now).Ok?
    ensures var c := RateVisit(db, q, now).value;
      var before := RatedKeys(db.surveys, doctor);
      var after := RatedKeys(c.db.surveys, doctor);
      && (doctor == q.doctor ==>
            |after| == |before| + 1 && SumOver(c.db.surveys, after) == SumOver(db.surveys, before) + q.rating)
      && (doctor != q.doctor ==>
            after == before && SumOver(c.db.surveys, after) == SumOver(db.surveys, before))
  {
    var c := RateVisit(db, q, now).value;
    var s := c.db.surveys[c.id];
    assert c.db.surveys == db.surveys[c.id := s];
    if doctor == q.doctor {
      AddCounted(db.surveys, c.id, s, doctor);
    } else {
      AddUncounted(db.surveys, c.id, s, doctor);
    }
  }

  /** An anonymous rating adds exactly one rating to the aggregate of the
      visit's doctor and changes no other doctor's. */
  lemma AnonymousRatingUpdatesAggregate(db: Db, q: AnonymousRequest, now: Instant, doctor: int)
    requires RateAnonymously(db, q, now).Ok?
    ensures var c := RateAnonymously(db, q, now).value;
      var before := RatedKeys(db.surveys, doctor);
      var after := RatedKeys(c.db.surveys, doctor);
      && (doctor == db.visits[q.visit].doctor ==>
            |after| == |before| + 1 && SumOver(c.db.surveys, after) == SumOver(db.surveys, before) + q.rating)
      && (doctor != db.visits[q.visit].doctor ==>
            after == before && SumOver(c.db.surveys, after) == SumOver(db.surveys, before))
  {
    var c := RateAnonymously(db, q, now).value;
    var s := c.db.surveys[c.id];
    assert c.db.surveys == db.surveys[c.id := s];
    if doctor == db.visits[q.visit].doctor {
      AddCounted(db.surveys, c.id, s, doctor);
    } else {
      AddUncounted(db.surveys, c.id, s, doctor);
    }
  }
}

=== FILE: records.dfy ===
/** The entities of the clinic and the store that holds them: one map per
    table (relational tables and the survey collection), keyed by id. */
module Records {
  import opened Common

  /** The six visit statuses. The source stores them as strings; every
      writer in the handlers writes one of these six. */
  datatype Status = Zaplanowana | Oczekujaca | Zaakceptowana | Odbyta | Odrzucona | Anulowana

  /** The string the source stores for a status. */
  function StatusName(s: Status): string {
    match s
    case Zaplanowana => "Zaplanowana"
    case Oczekujaca => "Oczekująca"
    case Zaakceptowana => "Zaakceptowana"
    case Odbyta => "Odbyta"
    case Odrzucona => "Odrzucona"
    case Anulowana => "Anulowana"
  }

  /** The whitelist of the admin visit update: a string names a status
      exactly when it is one of the six stored spellings. */
  function ParseStatus(text: string): (r: Option<Status>)
    ensures r.Some? ==> StatusName(r.value) == text
    ensures r.None? ==> forall s: Status :: StatusName(s) != text
  {
    if text == "Zaplanowana" then Some(Zaplanowana)
    else if text == "Oczekująca" then Some(Oczekujaca)
    else if text == "Zaakceptowana" then Some(Zaakceptowana)
    else if text == "Odbyta" then Some(Odbyta)
    else if text == "Odrzucona" then Some(Odrzucona)
    else if text == "Anulowana" then Some(Anulowana)
    else None
  }

  /** Every stored spelling parses back to its status. */
  lemma ParseStatusName(s: Status)
    ensures ParseStatus(StatusName(s)) == Some(s)
  {
  }

  /** Wizyta: one appointment of a patient with a doctor. */
  datatype Visit = Visit(data: Instant, status: Status, patient: int, doctor: int)

  /** TerminLekarza: a bookable interval [start, end) of one doctor. */
  datatype Slot = Slot(start: Instant, end: Instant, available: bool, doctor: int)

  /** Pacjent; `user` links the record to an account (UserId). */
  datatype Patient = Patient(firstName: string, lastName: string, pesel: string, user: Option<int>)

  /** Lekarz; `user` links the record to an account (UserId). */
  datatype Doctor = Doctor(firstName: string, lastName: string, specialty: string, user: Option<int>)

  /** An account of the identity library. The role is free text
      ("Patient", "Doctor", "Admin" by convention). `emailKey` is the
      normalised e-mail column that e-mail lookups search: account creation
      sets it from the e-mail, and nothing that later writes `email`
      directly refreshes it. */
  datatype User = User(email: string, emailKey: string, firstName: string, lastName: string, role: string)

  /** OdpowiedzAnkiety: one answered question of a survey. */
  datatype Answer = Answer(question: string, answer: string, category: Option<string>)

  /** Ankieta, with the fields the survey handlers read and write. */
  datatype Survey = Survey(
    number: int,                // IdAnkiety
    patient: Option<int>,       // IdPacjenta
    visit: Option<int>,         // IdWizyty
    doctor: Option<int>,        // IdLekarza
    doctorName: Option<string>, // NazwaLekarza
    pesel: Option<string>,
    anonymous: bool,            // CzyAnonimowa
    filledAt: Instant,          // DataWypelnienia
    visitDate: Option<Instant>, // DataWizyty
    kind: string,               // TypAnkiety
    rating: Option<int>,        // OcenaWizyty
    answers: seq<Answer>,       // Odpowiedzi
    notes: Option<string>,      // DodatkoweUwagi
    createdAt: Instant,         // DataUtworzenia
    modifiedAt: Instant         // OstatniaModyfikacja
  )

  /** The whole persistent state: the relational tables and the survey
      collection, each a map from id to record. */
  datatype Db = Db(
    users: map<int, User>,
    patients: map<int, Patient>,
    doctors: map<int, Doctor>,
    visits: map<int, Visit>,
    slots: map<int, Slot>,
    surveys: map<int, Survey>
  )

  /** The result of a handler that inserts one row: the new store and the
      key of the new row. */
  datatype Created = Created(db: Db, id: int)
}

=== FILE: slots.dfy ===
/** TerminController: doctors publish bookable slots, singly or as a batch
    sliced out of a longer range, and delete slots nobody has booked. */
module Slots {
  import opened Common
  import opened Records

  /** The overlap test both creation handlers run against an existing slot
      `t` of the same doctor: the new start lies in [t.start, t.end) or the
      new end lies in (t.start, t.end]. */
  predicate Conflicts(t: Slot, start: Instant, end: Instant) {
    || (start >= t.start && start < t.end)
    || (end > t.start && end <= t.end)
  }

  /** Some slot of `doctor` conflicts with [start, end). */
  predicate HasConflict(slots: map<int, Slot>, doctor: int, start: Instant, end: Instant) {
    exists id :: id in slots && slots[id].doctor == doctor && Conflicts(slots[id], start, end)
  }

  /** Reference notion: the half-open intervals [aStart, aEnd) and
      [bStart, bEnd) share an instant. */
  predicate Overlaps(aStart: Instant, aEnd: Instant, bStart: Instant, bEnd: Instant) {
    aStart < bEnd && bStart < aEnd
  }

  /** For non-empty intervals the handlers' test is the overlap test minus
      one case: a new slot that strictly encloses the existing one. */
  lemma ConflictsIsOverlapButEnclosure(t: Slot, start: Instant, end: Instant)
    requires t.start < t.end && start < end
    ensures Conflicts(t, start, end) <==>
              Overlaps(start, end, t.start, t.end) && !(start < t.start && t.end < end)
  {
  }

  /** A slot 9:50-10:40 is accepted next to an existing 10:00-10:30 slot of
      the same doctor although the two intervals overlap. */
  lemma EnclosingSlotIsAccepted(db: Db, doctor: int)
    requires doctor in db.doctors
    requires db.slots == map[1 := Slot(600, 630, true, doctor)]
    ensures Overlaps(590, 640, 600, 630)
    ensures CreateSlot(db, doctor, 590, 640).Ok?
  {
    assert !Conflicts(db.slots[1], 590, 640);
  }

  /** CreateTermin: add one available slot unless the doctor is unknown or
      the new interval conflicts with one of the doctor's slots. */
  function CreateSlot(db: Db, doctor: int, start: Instant, end: Instant): (r: Outcome<Created>)
    ensures doctor !in db.doctors ==> r == BadRequest(DoctorMissing)
    ensures doctor in db.doctors && HasConflict(db.slots, doctor, start, end) ==> r == BadRequest(SlotOverlap)
    ensures r.Ok? <==> doctor in db.doctors && !HasConflict(db.slots, doctor, start, end)
    ensures r.Ok? ==> r.value.id !in db.slots
    ensures r.Ok? ==> r.value.db == db.(slots := db.slots[r.value.id := Slot(start, end, true, doctor)])
  {
    if doctor !in db.doctors then BadRequest(DoctorMissing)
    else if HasConflict(db.slots, doctor, start, end) then BadRequest(SlotOverlap)
    else
      var id := FreshKey(db.slots);
      Ok(Created(db.(slots := db.slots[id := Slot(start, end, true, doctor)]), id))
  }

  /** A candidate interval of the batch handler. */
  datatype Interval = Interval(start: Instant, end: Instant)

  /** Starts strictly increase along the sequence. */
  predicate Ascending(ivs: seq<Interval>) {
    forall i, j :: 0 <= i < j < |ivs| ==> ivs[i].start < ivs[j].start
  }

  /** The batch handler's loop ends: either the length is positive, or the
      first piece already passes `until`, so the body never runs. The
      handler checks neither; the other inputs never finish normally. */
  predicate SliceEnds(from: Instant, until: Instant, minutes: int) {
    minutes > 0 || from + minutes > until
  }

  /** The batch handler's loop: cut the range starting at `from` into
      consecutive pieces of `minutes` length, as long as a whole piece still
      ends by `until`. */
  function Slice(from: Instant, until: Instant, minutes: int): (r: seq<Interval>)
    requires SliceEnds(from, until, minutes)
    decreases until - from
    ensures r == [] <==> from + minutes > until
    ensures |r| > 0 ==> from + |r| * minutes <= until
    ensures from + (|r| + 1) * minutes > until
    ensures forall i :: 0 <= i < |r| ==> r[i].start == from + i * minutes
    ensures forall i :: 0 <= i < |r| ==> r[i].end == r[i].start + minutes && r[i].end <= until
    ensures forall i :: 0 <= i < |r| ==> from <= r[i].start
    ensures Ascending(r)
  {
    if from + minutes <= until then
      var rest := Slice(from + minutes, until, minutes);
      var r := [Interval(from, from + minutes)] + rest;
      assert forall i :: 1 <= i < |r| ==> r[i] == rest[i - 1];
      assert (|rest| + 1) * minutes == |rest| * minutes + minutes;
      assert (|r| + 1) * minutes == (|rest| + 1) * minutes + minutes;
      forall i | 1 <= i < |r|
        ensures r[i].start == from + i * minutes
      {
        assert i * minutes == (i - 1) * minutes + minutes;
      }
      r
    else
      []
  }

  /** The number of pieces is (until - from) / minutes, rounded down. */
  lemma SliceCount(from: Instant, until: Instant, minutes: int)
    requires minutes > 0 && from <= until
    ensures |Slice(from, until, minutes)| == (until - from) / minutes
  {
    DivOf(until - from, minutes, |Slice(from, until, minutes)|);
  }

  /** The pieces tile the range from `from` on without gaps: the first
      starts at `from` and each starts where the previous one ends. */
  lemma SliceTiles(from: Instant, until: Instant, minutes: int)
    requires SliceEnds(from, until, minutes)
    ensures var r := Slice(from, until, minutes);
      && (|r| > 0 ==> r[0].start == from)
      && (forall i :: 0 < i < |r| ==> r[i].start == r[i - 1].end)
  {
    var r := Slice(from, until, minutes);
    forall i | 0 < i < |r|
      ensures r[i].start == r[i - 1].end
    {
      assert i * minutes == (i - 1) * minutes + minutes;
    }
  }

  lemma DivOf(d: int, m: int, q: int)
    requires m > 0 && q >= 0
    requires q * m <= d < (q + 1) * m
    ensures d / m == q
  {
    var q' := d / m;
    if q' > q {
      MulMono(q + 1, q', m);
      assert false;
    }
    if q' < q {
      MulMono(q' + 1, q, m);
      assert false;
    }
  }

  lemma {:induction false} MulMono(a: int, b: int, m: int)
    requires m > 0 && a <= b
    ensures a * m <= b * m
    decreases b - a
  {
    if a < b {
      MulMono(a, b - 1, m);
      assert b * m == (b - 1) * m + m;
    }
  }

  /** The candidates that pass the overlap test against the slots that
      existed before the call, in slicing order. */
  function Fitting(slots: map<int, Slot>, doctor: int, cands: seq<Interval>): (r: seq<Interval>)
    ensures forall c :: c in r <==> c in cands && !HasConflict(slots, doctor, c.start, c.end)
  {
    if cands == [] then []
    else
      var rest := Fitting(slots, doctor, cands[1..]);
      assert forall c :: c in cands ==> c == cands[0] || c in cands[1..];
      if HasConflict(slots, doctor, cands[0].start, cands[0].end) then rest
      else [cands[0]] + rest
  }

  /** Filtering keeps the slicing order. */
  lemma {:induction false} FittingAscending(slots: map<int, Slot>, doctor: int, cands: seq<Interval>)
    requires Ascending(cands)
    ensures Ascending(Fitting(slots, doctor, cands))
  {
    if cands != [] {
      var rest := Fitting(slots, doctor, cands[1..]);
      assert Ascending(cands[1..]);
      FittingAscending(slots, doctor, cands[1..]);
      if !HasConflict(slots, doctor, cands[0].start, cands[0].end) {
        var r := [cands[0]] + rest;
        forall c | c in rest
          ensures cands[0].start < c.start
        {
          var j :| 0 <= j < |cands[1..]| && cands[1..][j] == c;
          assert cands[j + 1] == c;
        }
        forall i, j | 0 <= i < j < |r|
          ensures r[i].start < r[j].start
        {
          assert r[j] == rest[j - 1];
          if i > 0 { assert r[i] == rest[i - 1]; } else { assert r[j] in rest; }
        }
      }
    }
  }

  /** Store the intervals in order as new available slots of `doctor`, each
      under the next fresh key. Returns the new table and the keys used. */
  function AddAll(slots: map<int, Slot>, doctor: int, ivs: seq<Interval>): (r: (map<int, Slot>, seq<int>))
    decreases |ivs|
    ensures |r.1| == |ivs|
    ensures forall i :: 0 <= i < |ivs| ==> r.1[i] !in slots && r.1[i] in r.0
    ensures forall i :: 0 <= i < |ivs| ==> r.0[r.1[i]] == Slot(ivs[i].start, ivs[i].end, true, doctor)
    ensures forall i, j :: 0 <= i < j < |ivs| ==> r.1[i] < r.1[j]
    ensures forall k :: k in r.0 <==> k in slots || k in r.1
    ensures forall k :: k in slots ==> r.0[k] == slots[k]
  {
    if ivs == [] then (slots, [])
    else
      var id := FreshKey(slots);
      var rest := AddAll(slots[id := Slot(ivs[0].start, ivs[0].end, true, doctor)], doctor, ivs[1..]);
      (rest.0, [id] + rest.1)
  }

  /** The outcome of the batch handler: the new store and the keys of the
      slots it created, in slicing order. */
  datatype Batch = Batch(db: Db, ids: seq<int>)

  /** CreateTerminyBatch: slice the range and store every piece that does not
      conflict with a slot of the doctor that existed before the call. A
      conflicting piece is skipped; the batch as a whole never fails once
      the doctor exists. */
  function CreateBatch(db: Db, doctor: int, from: Instant, until: Instant, minutes: int): (r: Outcome<Batch>)
    requires SliceEnds(from, until, minutes)
    ensures doctor !in db.doctors ==> r == BadRequest(DoctorMissing)
    ensures doctor in db.doctors ==> r.Ok?
    ensures doctor in db.doctors && from + minutes > until ==> r == Ok(Batch(db, []))
    ensures r.Ok? ==>
      var kept := Fitting(db.slots, doctor, Slice(from, until, minutes));
      && |r.value.ids| == |kept|
      && (forall i :: 0 <= i < |kept| ==> r.value.ids[i] !in db.slots)
      && (forall i :: 0 <= i < |kept| ==> r.value.ids[i] in r.value.db.slots)
      && (forall i :: 0 <= i < |kept| ==>
            r.value.db.slots[r.value.ids[i]] == Slot(kept[i].start, kept[i].end, true, doctor))
    ensures r.Ok? ==> forall i, j :: 0 <= i < j < |r.value.ids| ==> r.value.ids[i] < r.value.ids[j]
    ensures r.Ok? ==> forall k :: k in r.value.db.slots <==> k in db.slots || k in r.value.ids
    ensures r.Ok? ==> forall k :: k in db.slots ==> r.value.db.slots[k] == db.slots[k]
    ensures r.Ok? ==> r.value.db == db.(slots := r.value.db.slots)
  {
    if doctor !in db.doctors then BadRequest(DoctorMissing)
    else
      var kept := Fitting(db.slots, doctor, Slice(from, until, minutes));
      var added := AddAll(db.slots, doctor, kept);
      Ok(Batch(db.(slots := added.0), added.1))
  }

  /** DeleteTermin: only a slot nobody has booked may be removed. */
  function DeleteSlot(db: Db, id: int): (r: Outcome<Db>)
    ensures id !in db.slots ==> r == NotFound
    ensures id in db.slots && !db.slots[id].available ==> r == BadRequest(SlotBooked)
    ensures r.Ok? <==> id in db.slots && db.slots[id].available
    ensures r.Ok? ==> r.value == db.(slots := r.value.slots)
    ensures r.Ok? ==> r.value.slots.Keys == db.slots.Keys - {id}
    ensures r.Ok? ==> forall k :: k in r.value.slots ==> r.value.slots[k] == db.slots[k]
  {
    if id !in db.slots then NotFound
    else if !db.slots[id].available then BadRequest(SlotBooked)
    else Ok(db.(slots := db.slots - {id}))
  }

  /** Deleting a freshly created slot gives back the store it was created in. */
  lemma DeleteUndoesCreate(db: Db, doctor: int, start: Instant, end: Instant)
    requires CreateSlot(db, doctor, start, end).Ok?
    ensures var c := CreateSlot(db, doctor, start, end).value;
      DeleteSlot(c.db, c.id) == Ok(db)
  {
    var c := CreateSlot(db, doctor, start, end).value;
    var back := c.db.slots - {c.id};
    assert forall k :: k in back <==> k in db.slots;
    assert back == db.slots;
  }

  /** The slot table keeps what creation can keep: every slot is a
      non-empty interval and no two slots of one doctor start together. */
  predicate WellFormed(slots: map<int, Slot>) {
    && (forall id :: id in slots ==> slots[id].start < slots[id].end)
    && (forall a, b :: a in slots && b in slots && a != b && slots[a].doctor == slots[b].doctor ==>
          slots[a].start != slots[b].start)
  }

  /** Creating a non-empty slot keeps the table well formed: a slot of the
      same doctor with the same start always fails the overlap test. The
      handler itself does not reject an empty or reversed interval. */
  lemma CreateKeepsWellFormed(db: Db, doctor: int, start: Instant, end: Instant)
    requires WellFormed(db.slots)
    requires start < end
    requires CreateSlot(db, doctor, start, end).Ok?
    ensures WellFormed(CreateSlot(db, doctor, start, end).value.db.slots)
  {
    var c := CreateSlot(db, doctor, start, end).value;
    forall a | a in db.slots && db.slots[a].doctor == doctor
      ensures db.slots[a].start != start
    {
      assert !Conflicts(db.slots[a], start, end);
    }
  }

  /** The batch keeps the table well formed: its pieces are non-empty,
      start at distinct instants, and none shares a start with an existing
      slot of the doctor. */
  lemma BatchKeepsWellFormed(db: Db, doctor: int, from: Instant, until: Instant, minutes: int)
    requires SliceEnds(from, until, minutes)
    requires WellFormed(db.slots)
    requires doctor in db.doctors
    ensures WellFormed(CreateBatch(db, doctor, from, until, minutes).value.db.slots)
  {
    var b := CreateBatch(db, doctor, from, until, minutes).value;
    var cands := Slice(from, until, minutes);
    var kept := Fitting(db.slots, doctor, cands);
    assert forall c :: c in kept ==> c in cands && !HasConflict(db.slots, doctor, c.start, c.end);
    assert forall i :: 0 <= i < |kept| ==> kept[i] in kept;
    FittingAscending(db.slots, doctor, cands);
    AddedKeepWellFormed(db.slots, b.db.slots, doctor, b.ids, kept);
  }

  /** The store after adding pieces `ivs` under keys `ids` is well formed
      when the pieces are non-empty, ascending and free of conflicts with
      the slots already there. */
  lemma AddedKeepWellFormed(slots: map<int, Slot>, s: map<int, Slot>, doctor: int, ids: seq<int>, ivs: seq<Interval>)
    requires WellFormed(slots)
    requires |ids| == |ivs|
    requires forall k :: k in s <==> k in slots || k in ids
    requires forall k :: k in slots ==> s[k] == slots[k]
    requires forall i :: 0 <= i < |ids| ==> ids[i] !in slots && ids[i] in s
    requires forall i :: 0 <= i < |ids| ==> s[ids[i]] == Slot(ivs[i].start, ivs[i].end, true, doctor)
    requires forall i :: 0 <= i < |ivs| ==> ivs[i].start < ivs[i].end
    requires forall i :: 0 <= i < |ivs| ==> !HasConflict(slots, doctor, ivs[i].start, ivs[i].end)
    requires Ascending(ivs)
    ensures WellFormed(s)
  {
    forall k | k in s
      ensures s[k].start < s[k].end
    {
      if k !in slots {
        var i :| 0 <= i < |ids| && ids[i] == k;
      }
    }
    forall x, y | x in s && y in s && x != y && s[x].doctor == s[y].doctor
      ensures s[x].start != s[y].start
    {
      if x in slots && y in slots {
      } else if x !in slots && y !in slots {
        var i :| 0 <= i < |ids| && ids[i] == x;
        var j :| 0 <= j < |ids| && ids[j] == y;
        if i < j { assert ivs[i].start < ivs[j].start; } else { assert ivs[j].start < ivs[i].start; }
      } else {
        var former := if x in slots then x else y;
        var added := if x in slots then y else x;
        var i :| 0 <= i < |ids| && ids[i] == added;
        assert !Conflicts(slots[former], ivs[i].start, ivs[i].end);
      }
    }
  }

  /** Flipping a slot's availability keeps the table well formed. */
  lemma FlipKeepsWellFormed(slots: map<int, Slot>, id: int, available: bool)
    requires WellFormed(slots)
    requires id in slots
    ensures WellFormed(slots[id := slots[id].(available := available)])
  {
  }
}

=== FILE: surveys.dfy ===
/** AnkietaController: free-form surveys, visit ratings (named and
    anonymous) with the one-survey-per-visit gate, and survey numbering. */
module Surveys {
  import opened Common
  import opened Records

  /** The kind every visit rating is stored under. */
  const RatingKind: string := "Ocena wizyty"

  /** A rating must lie in 1..5. */
  predicate InScale(rating: int) {
    1 <= rating <= 5
  }

  /** The survey numbers in use. */
  function Numbers(surveys: map<int, Survey>): set<int> {
    set k | k in surveys :: surveys[k].number
  }

  /** IdAnkiety of a new survey: one past the largest number in use, with 0
      standing for the largest number of an empty collection. */
  function NextNumber(surveys: map<int, Survey>): (n: int)
    ensures forall k :: k in surveys ==> surveys[k].number < n
    ensures surveys.Keys == {} ==> n == 1
    ensures surveys.Keys != {} ==> exists k :: k in surveys && surveys[k].number == n - 1
  {
    if surveys.Keys == {} then 1
    else
      NumbersNonEmpty(surveys);
      var top := Max(Numbers(surveys));
      assert forall k :: k in surveys ==> surveys[k].number in Numbers(surveys);
      top + 1
  }

  lemma NumbersNonEmpty(surveys: map<int, Survey>)
    requires surveys.Keys != {}
    ensures Numbers(surveys) != {}
  {
    var k := Pick(surveys.Keys);
    assert surveys[k].number in Numbers(surveys);
  }

  /** Some survey in the collection is about `visit`: the gate both rating
      handlers check. */
  predicate Rated(surveys: map<int, Survey>, visit: int) {
    exists k :: k in surveys && surveys[k].visit == Some(visit)
  }

  /** `db` with survey `s` stored under a fresh document key. */
  function Insert(db: Db, s: Survey): (r: Created)
    ensures r.id !in db.surveys
    ensures r.db == db.(surveys := db.surveys[r.id := s])
  {
    var id := FreshKey(db.surveys);
    Created(db.(surveys := db.surveys[id := s]), id)
  }

  /** The body of a free-form survey; absent fields take their defaults. */
  datatype SurveyRequest = SurveyRequest(
    patient: Option<int>,
    pesel: Option<string>,
    filledAt: Option<Instant>,
    kind: string,
    answers: Option<seq<Answer>>,
    notes: Option<string>
  )

  /** CreateAnkieta: no validation; the fill-in time defaults to `now` and
      the answers to none. */
  function CreateSurvey(db: Db, q: SurveyRequest, now: Instant): (r: Outcome<Created>)
    ensures r.Ok?
    ensures r.value.id !in db.surveys
    ensures r.value.db == db.(surveys := r.value.db.surveys)
    ensures r.value.id in r.value.db.surveys
    ensures r.value.db.surveys == db.surveys[r.value.id := r.value.db.surveys[r.value.id]]
    ensures var s := r.value.db.surveys[r.value.id];
      && s.number == NextNumber(db.surveys)
      && (forall k :: k in db.surveys ==> db.surveys[k].number < s.number)
      && s.patient == q.patient && s.pesel == q.pesel && s.kind == q.kind && s.notes == q.notes
      && s.visit.None? && s.doctor.None? && s.doctorName.None? && s.visitDate.None?
      && s.rating.None? && !s.anonymous
      && s.filledAt == (if q.filledAt.Some? then q.filledAt.value else now)
      && s.answers == (if q.answers.Some? then q.answers.value else [])
      && s.createdAt == now && s.modifiedAt == now
  {
    var s := Survey(NextNumber(db.surveys), q.patient, None, None, None, q.pesel, false,
                    q.filledAt.GetOr(now), None, q.kind, None, q.answers.GetOr([]), q.notes, now, now);
    Ok(Insert(db, s))
  }

  /** The body of a survey update; an absent field is left alone. */
  datatype SurveyPatch = SurveyPatch(answers: Option<seq<Answer>>, notes: Option<string>)

  /** UpdateAnkieta: replace the answers and the notes where given and
      stamp the modification time; nothing else changes. */
  function UpdateSurvey(db: Db, id: int, p: SurveyPatch, now: Instant): (r: Outcome<Db>)
    ensures r.NotFound? <==> id !in db.surveys
    ensures r.Ok? || r.NotFound?
    ensures r.Ok? ==> id in r.value.surveys
    ensures r.Ok? ==> r.value == db.(surveys := db.surveys[id := r.value.surveys[id]])
    ensures r.Ok? ==> var old_ := db.surveys[id]; var s := r.value.surveys[id];
      && s.answers == (if p.answers.Some? then p.answers.value else old_.answers)
      && s.notes == (if p.notes.Some? then p.notes else old_.notes)
      && s.modifiedAt == now
      && s == old_.(answers := s.answers, notes := s.notes, modifiedAt := now)
  {
    if id !in db.surveys then NotFound
    else
      var s := db.surveys[id];
      var s1 := s.(answers := p.answers.GetOr(s.answers));
      var s2 := if p.notes.Some? then s1.(notes := p.notes) else s1;
      Ok(db.(surveys := db.surveys[id := s2.(modifiedAt := now)]))
  }

  /** DeleteAnkieta: remove exactly that survey. */
  function DeleteSurvey(db: Db, id: int): (r: Outcome<Db>)
    ensures r.NotFound? <==> id !in db.surveys
    ensures r.Ok? || r.NotFound?
    ensures r.Ok? ==> r.value == db.(surveys := r.value.surveys)
    ensures r.Ok? ==> r.value.surveys.Keys == db.surveys.Keys - {id}
    ensures r.Ok? ==> forall k :: k in r.value.surveys ==> r.value.surveys[k] == db.surveys[k]
  {
    if id !in db.surveys then NotFound
    else Ok(db.(surveys := db.surveys - {id}))
  }

  /** The body of a named rating. */
  datatype RatingRequest = RatingRequest(
    patient: int,
    visit: int,
    doctor: int,
    pesel: string,
    rating: int,
    answers: Option<seq<Answer>>,
    notes: Option<string>
  )

  /** CreateOcenaWizyty: refuse a second survey for the visit, then a
      rating outside 1..5. The visit itself is never looked up. */
  function RateVisit(db: Db, q: RatingRequest, now: Instant): (r: Outcome<Created>)
    ensures Rated(db.surveys, q.visit) ==> r == BadRequest(AlreadyRated)
    ensures !Rated(db.surveys, q.visit) && !InScale(q.rating) ==> r == BadRequest(RatingOutOfRange)
    ensures r.Ok? <==> !Rated(db.surveys, q.visit) && InScale(q.rating)
    ensures r.Ok? ==> r.value.id !in db.surveys
    ensures r.Ok? ==> r.value.id in r.value.db.surveys
    ensures r.Ok? ==> r.value.db == db.(surveys := db.surveys[r.value.id := r.value.db.surveys[r.value.id]])
    ensures r.Ok? ==> var s := r.value.db.surveys[r.value.id];
      && s.number == NextNumber(db.surveys)
      && (forall k :: k in db.surveys ==> db.surveys[k].number < s.number)
      && s.visit == Some(q.visit) && s.doctor == Some(q.doctor)
      && s.patient == Some(q.patient) && s.pesel == Some(q.pesel) && !s.anonymous
      && s.kind == RatingKind && s.rating == Some(q.rating)
      && s.doctorName.None? && s.visitDate.None?
      && s.answers == (if q.answers.Some? then q.answers.value else []) && s.notes == q.notes
      && s.filledAt == now && s.createdAt == now && s.modifiedAt == now
  {
    if Rated(db.surveys, q.visit) then BadRequest(AlreadyRated)
    else if !InScale(q.rating) then BadRequest(RatingOutOfRange)
    else
      var s := Survey(NextNumber(db.surveys), Some(q.patient), Some(q.visit), Some(q.doctor), None,
                      Some(q.pesel), false, now, None, RatingKind, Some(q.rating),
                      q.answers.GetOr([]), q.notes, now, now);
      Ok(Insert(db, s))
  }

  /** The visit exists and so does its doctor: what loading the visit
      together with its doctor finds. */
  predicate VisitWithDoctor(db: Db, visit: int) {
    visit in db.visits && db.visits[visit].doctor in db.doctors
  }

  /** The body of an anonymous rating. */
  datatype AnonymousRequest = AnonymousRequest(visit: int, rating: int, answers: Option<seq<Answer>>, notes: Option<string>)

  /** The doctor's display name stored with an anonymous rating. */
  function FullName(d: Doctor): string {
    d.firstName + " " + d.lastName
  }

  /** CreateAnkietaAnonimowa: the visit must exist and have taken place,
      must not be rated yet, and the rating must lie in 1..5, checked in
      that order. The visit is loaded together with its required doctor (an
      inner join), so a visit whose doctor row is missing is not found. The
      stored survey carries the visit's doctor and date but neither the
      patient nor the PESEL. */
  function RateAnonymously(db: Db, q: AnonymousRequest, now: Instant): (r: Outcome<Created>)
    ensures r.NotFound? <==> !VisitWithDoctor(db, q.visit)
    ensures VisitWithDoctor(db, q.visit) && db.visits[q.visit].status != Odbyta ==> r == BadRequest(VisitNotCompleted)
    ensures VisitWithDoctor(db, q.visit) && db.visits[q.visit].status == Odbyta && Rated(db.surveys, q.visit) ==>
              r == BadRequest(AlreadyRated)
    ensures (VisitWithDoctor(db, q.visit) && db.visits[q.visit].status == Odbyta && !Rated(db.surveys, q.visit) &&
             !InScale(q.rating)) ==> r == BadRequest(RatingOutOfRange)
    ensures r.Ok? <==> VisitWithDoctor(db, q.visit) && db.visits[q.visit].status == Odbyta &&
                       !Rated(db.surveys, q.visit) && InScale(q.rating)
    ensures r.Ok? ==> r.value.id !in db.surveys
    ensures r.Ok? ==> r.value.id in r.value.db.surveys
    ensures r.Ok? ==> r.value.db == db.(surveys := db.surveys[r.value.id := r.value.db.surveys[r.value.id]])
    ensures r.Ok? ==> var s := r.value.db.surveys[r.value.id]; var v := db.visits[q.visit];
      && s.number == NextNumber(db.surveys)
      && (forall k :: k in db.surveys ==> db.surveys[k].number < s.number)
      && s.patient.None? && s.pesel.None? && s.anonymous
      && s.visit == Some(q.visit) && s.doctor == Some(v.doctor) && s.visitDate == Some(v.data)
      && s.doctorName == Some(FullName(db.doctors[v.doctor]))
      && s.kind == RatingKind && s.rating == Some(q.rating)
      && s.answers == (if q.answers.Some? then q.answers.value else []) && s.notes == q.notes
      && s.filledAt == now && s.createdAt == now && s.modifiedAt == now
  {
    if !VisitWithDoctor(db, q.visit) then NotFound
    else
      var v := db.visits[q.visit];
      if v.status != Odbyta then BadRequest(VisitNotCompleted)
      else if Rated(db.surveys, q.visit) then BadRequest(AlreadyRated)
      else if !InScale(q.rating) then BadRequest(RatingOutOfRange)
      else
        var s := Survey(NextNumber(db.surveys), None, Some(q.visit), Some(v.doctor),
                        Some(FullName(db.doctors[v.doctor])), None, true, now, Some(v.data),
                        RatingKind, Some(q.rating), q.answers.GetOr([]), q.notes, now, now);
        Ok(Insert(db, s))
  }

  /** The answer of CzyWizytaOceniona: whether the visit is rated and, if
      so, the rating of the survey found for it. */
  datatype RatedAnswer = RatedAnswer(rated: bool, rating: Option<int>)

  /** CzyWizytaOceniona: look up the survey about `visit`; when several
      exist, the one under the least key answers. */
  function IsRated(surveys: map<int, Survey>, visit: int): (r: RatedAnswer)
    ensures r.rated <==> Rated(surveys, visit)
    ensures !r.rated ==> r.rating.None?
    ensures r.rated ==> exists k :: k in surveys && surveys[k].visit == Some(visit) && surveys[k].rating == r.rating
  {
    match FirstWhere(surveys, (s: Survey) => s.visit == Some(visit))
    case None => RatedAnswer(false, None)
    case Some(k) => RatedAnswer(true, surveys[k].rating)
  }

  /** At most one survey per visit. */
  predicate OnePerVisit(surveys: map<int, Survey>) {
    forall a, b :: a in surveys && b in surveys && a != b && surveys[a].visit.Some? ==>
      surveys[a].visit != surveys[b].visit
  }

  /** No two surveys share a number. */
  predicate NumbersUnique(surveys: map<int, Survey>) {
    forall a, b :: a in surveys && b in surveys && a != b ==> surveys[a].number != surveys[b].number
  }

  predicate SurveyInv(surveys: map<int, Survey>) {
    OnePerVisit(surveys) && NumbersUnique(surveys)
  }

  /** Adding a survey numbered above all others, whose visit (if any) is
      not rated yet, keeps the survey invariant. */
  lemma AddKeepsInv(surveys: map<int, Survey>, id: int, s: Survey)
    requires SurveyInv(surveys)
    requires id !in surveys
    requires forall k :: k in surveys ==> surveys[k].number < s.number
    requires s.visit.Some? ==> !Rated(surveys, s.visit.value)
    ensures SurveyInv(surveys[id := s])
  {
    var n := surveys[id := s];
    forall a, b | a in n && b in n && a != b && n[a].visit.Some?
      ensures n[a].visit != n[b].visit
    {
      if a == id {
        assert n[b] == surveys[b];
      } else if b == id {
        assert n[a] == surveys[a];
      }
    }
  }

  lemma CreateKeepsInv(db: Db, q: SurveyRequest, now: Instant)
    requires SurveyInv(db.surveys)
    ensures SurveyInv(CreateSurvey(db, q, now).value.db.surveys)
  {
    var c := CreateSurvey(db, q, now).value;
    AddKeepsInv(db.surveys, c.id, c.db.surveys[c.id]);
  }

  lemma RateKeepsInv(db: Db, q: RatingRequest, now: Instant)
    requires SurveyInv(db.surveys) && RateVisit(db, q, now).Ok?
    ensures SurveyInv(RateVisit(db, q, now).value.db.surveys)
  {
    var c := RateVisit(db, q, now).value;
    AddKeepsInv(db.surveys, c.id, c.db.surveys[c.id]);
  }

  lemma RateAnonymouslyKeepsInv(db: Db, q: AnonymousRequest, now: Instant)
    requires SurveyInv(db.surveys) && RateAnonymously(db, q, now).Ok?
    ensures SurveyInv(RateAnonymously(db, q, now).value.db.surveys)
  {
    var c := RateAnonymously(db, q, now).value;
    AddKeepsInv(db.surveys, c.id, c.db.surveys[c.id]);
  }

  /** An update keeps the number and the visit of the survey. */
  lemma UpdateKeepsInv(db: Db, id: int, p: SurveyPatch, now: Instant)
    requires SurveyInv(db.surveys) && UpdateSurvey(db, id, p, now).Ok?
    ensures SurveyInv(UpdateSurvey(db, id, p, now).value.surveys)
  {
  }

  lemma DeleteKeepsInv(db: Db, id: int)
    requires SurveyInv(db.surveys) && DeleteSurvey(db, id).Ok?
    ensures SurveyInv(DeleteSurvey(db, id).value.surveys)
  {
  }

  /** The same update applied twice at the same instant is the update
      applied once. */
  lemma UpdateIdempotent(db: Db, id: int, p: SurveyPatch, now: Instant)
    requires UpdateSurvey(db, id, p, now).Ok?
    ensures UpdateSurvey(UpdateSurvey(db, id, p, now).value, id, p, now) == UpdateSurvey(db, id, p, now)
  {
    var once := UpdateSurvey(db, id, p, now).value;
    assert once.surveys[id := once.surveys[id]] == once.surveys;
  }

  /** After a named rating of visit `v` succeeds, the visit reads as rated
      and every further rating of it, named or anonymous, is refused. */
  lemma RatedVisitStaysRated(db: Db, q: RatingRequest, now: Instant, again: RatingRequest, anon: AnonymousRequest, later: Instant)
    requires RateVisit(db, q, now).Ok?
    requires again.visit == q.visit && anon.visit == q.visit
    ensures var n := RateVisit(db, q, now).value.db;
      && IsRated(n.surveys, q.visit).rated
      && RateVisit(n, again, later) == BadRequest(AlreadyRated)
      && !RateAnonymously(n, anon, later).Ok?
  {
    var c := RateVisit(db, q, now).value;
    assert c.db.surveys[c.id].visit == Some(q.visit);
  }

  /** The same after an anonymous rating. */
  lemma AnonymouslyRatedVisitStaysRated(db: Db, q: AnonymousRequest, now: Instant, again: RatingRequest, anon: AnonymousRequest, later: Instant)
    requires RateAnonymously(db, q, now).Ok?
    requires again.visit == q.visit && anon.visit == q.visit
    ensures var n := RateAnonymously(db, q, now).value.db;
      && IsRated(n.surveys, q.visit).rated
      && RateVisit(n, again, later) == BadRequest(AlreadyRated)
      && RateAnonymously(n, anon, later) == BadRequest(AlreadyRated)
  {
    var c := RateAnonymously(db, q, now).value;
    assert c.db.surveys[c.id].visit == Some(q.visit);
  }

  /** The named rating never looks at the visit table: a visit that does
      not exist can be rated. */
  lemma RateVisitIgnoresVisits(db: Db, now: Instant)
    requires db.visits == map[] && db.surveys == map[]
    ensures RateVisit(db, RatingRequest(1, 42, 7, "90010112345", 5, None, None), now).Ok?
  {
  }
}

=== FILE: visits.dfy ===
/** WizytaController: direct creation, the admin patch, deletion and the
    guarded status transitions of a visit, two of which touch slot
    availability. */
module Visits {
  import opened Common
  import opened Records

  /** The busy check of direct creation: the doctor already has a visit at
      exactly this instant that is not cancelled. */
  predicate DoctorBusyAt(visits: map<int, Visit>, doctor: int, data: Instant) {
    exists id :: id in visits && visits[id].doctor == doctor && visits[id].data == data &&
      visits[id].status != Anulowana
  }

  /** `db` with the visit under `id` replaced and every other row kept. */
  function PutVisit(db: Db, id: int, v: Visit): Db {
    db.(visits := db.visits[id := v])
  }

  /** CreateWizyta: a planned visit, unless the patient or the doctor is
      unknown or the doctor is busy at that exact instant. */
  function CreateVisit(db: Db, patient: int, doctor: int, data: Instant): (r: Outcome<Created>)
    ensures patient !in db.patients ==> r == BadRequest(PatientMissing)
    ensures patient in db.patients && doctor !in db.doctors ==> r == BadRequest(DoctorMissing)
    ensures patient in db.patients && doctor in db.doctors && DoctorBusyAt(db.visits, doctor, data) ==>
              r == BadRequest(DoctorBusy)
    ensures r.Ok? <==> patient in db.patients && doctor in db.doctors && !DoctorBusyAt(db.visits, doctor, data)
    ensures r.Ok? ==> r.value.id !in db.visits
    ensures r.Ok? ==> r.value.db == PutVisit(db, r.value.id, Visit(data, Zaplanowana, patient, doctor))
  {
    if patient !in db.patients then BadRequest(PatientMissing)
    else if doctor !in db.doctors then BadRequest(DoctorMissing)
    else if DoctorBusyAt(db.visits, doctor, data) then BadRequest(DoctorBusy)
    else
      var id := FreshKey(db.visits);
      Ok(Created(PutVisit(db, id, Visit(data, Zaplanowana, patient, doctor)), id))
  }

  /** The admin's partial update; an absent field is left alone. */
  datatype VisitPatch = VisitPatch(data: Option<Instant>, status: Option<string>, doctor: Option<int>)

  /** A status field names a status when it is empty (and so ignored) or
      one of the six stored spellings. */
  predicate StatusAccepted(status: Option<string>) {
    !Present(status) || exists s: Status :: StatusName(s) == status.value
  }

  /** UpdateWizyta: apply the date, then the whitelisted status, then the
      doctor. Any refusal returns before the store is saved, so the store
      is untouched. No busy check is made. */
  function UpdateVisit(db: Db, id: int, p: VisitPatch): (r: Outcome<Db>)
    ensures id !in db.visits ==> r == NotFound
    ensures id in db.visits && !StatusAccepted(p.status) ==> r == BadRequest(UnknownStatus)
    ensures id in db.visits && StatusAccepted(p.status) && p.doctor.Some? && p.doctor.value !in db.doctors ==>
              r == BadRequest(DoctorMissing)
    ensures r.Ok? <==> id in db.visits && StatusAccepted(p.status) &&
                       (p.doctor.Some? ==> p.doctor.value in db.doctors)
    ensures r.Ok? ==> exists v :: r.value == PutVisit(db, id, v)
    ensures r.Ok? ==> var v := r.value.visits[id];
              && v.data == p.data.GetOr(db.visits[id].data)
              && v.doctor == p.doctor.GetOr(db.visits[id].doctor)
              && v.patient == db.visits[id].patient
              && (Present(p.status) ==> StatusName(v.status) == p.status.value)
              && (!Present(p.status) ==> v.status == db.visits[id].status)
  {
    if id !in db.visits then NotFound
    else
      var v := db.visits[id];
      var v1 := v.(data := p.data.GetOr(v.data));
      var parsed := if Present(p.status) then ParseStatus(p.status.value) else None;
      if Present(p.status) && parsed.None? then BadRequest(UnknownStatus)
      else
        var v2 := if parsed.Some? then v1.(status := parsed.value) else v1;
        if p.doctor.Some? && p.doctor.value !in db.doctors then BadRequest(DoctorMissing)
        else Ok(PutVisit(db, id, v2.(doctor := p.doctor.GetOr(v2.doctor))))
  }

  /** DeleteWizyta: remove exactly that visit. */
  function DeleteVisit(db: Db, id: int): (r: Outcome<Db>)
    ensures r.NotFound? <==> id !in db.visits
    ensures r.Ok? || r.NotFound?
    ensures r.Ok? ==> r.value == db.(visits := r.value.visits)
    ensures r.Ok? ==> r.value.visits.Keys == db.visits.Keys - {id}
    ensures r.Ok? ==> forall k :: k in r.value.visits ==> r.value.visits[k] == db.visits[k]
  {
    if id !in db.visits then NotFound
    else Ok(db.(visits := db.visits - {id}))
  }

  /** `db` with the status of visit `id` set to `s` and nothing else
      changed. */
  function WithStatus(db: Db, id: int, s: Status): Db
    requires id in db.visits
  {
    PutVisit(db, id, db.visits[id].(status := s))
  }

  /** CancelWizyta: any existing visit becomes cancelled, whatever its
      status; no slot is touched. */
  function Cancel(db: Db, id: int): (r: Outcome<Db>)
    ensures r.NotFound? <==> id !in db.visits
    ensures r.Ok? || r.NotFound?
    ensures r.Ok? ==> r.value == WithStatus(db, id, Anulowana)
    ensures r.Ok? ==> r.value.slots == db.slots
  {
    if id !in db.visits then NotFound
    else Ok(WithStatus(db, id, Anulowana))
  }

  /** AkceptujWizyte: only a pending visit may be accepted. */
  function Accept(db: Db, id: int): (r: Outcome<Db>)
    ensures id !in db.visits ==> r == NotFound
    ensures id in db.visits && db.visits[id].status != Oczekujaca ==> r == BadRequest(NotPending)
    ensures r.Ok? <==> id in db.visits && db.visits[id].status == Oczekujaca
    ensures r.Ok? ==> r.value == WithStatus(db, id, Zaakceptowana)
  {
    if id !in db.visits then NotFound
    else if db.visits[id].status != Oczekujaca then BadRequest(NotPending)
    else Ok(WithStatus(db, id, Zaakceptowana))
  }

  /** ZakonczWizyte: only an accepted visit may be completed. */
  function Complete(db: Db, id: int): (r: Outcome<Db>)
    ensures id !in db.visits ==> r == NotFound
    ensures id in db.visits && db.visits[id].status != Zaakceptowana ==> r == BadRequest(NotAccepted)
    ensures r.Ok? <==> id in db.visits && db.visits[id].status == Zaakceptowana
    ensures r.Ok? ==> r.value == WithStatus(db, id, Odbyta)
  {
    if id !in db.visits then NotFound
    else if db.visits[id].status != Zaakceptowana then BadRequest(NotAccepted)
    else Ok(WithStatus(db, id, Odbyta))
  }

  /** The slot the rejection frees: among the slots of `doctor` that start
      at `data`, the one with the least key, or none. */
  function MatchingSlot(slots: map<int, Slot>, doctor: int, data: Instant): (r: Option<int>)
    ensures r.Some? ==> r.value in slots && slots[r.value].doctor == doctor && slots[r.value].start == data
    ensures r.Some? ==> forall k :: k in slots && slots[k].doctor == doctor && slots[k].start == data ==> r.value <= k
    ensures r.None? ==> forall k :: k in slots ==> !(slots[k].doctor == doctor && slots[k].start == data)
  {
    FirstWhere(slots, (t: Slot) => t.doctor == doctor && t.start == data)
  }

  /** OdrzucWizyte: only a pending visit may be rejected; the matching slot,
      if there is one, becomes available again. A missing slot does not
      stop the rejection. */
  function Reject(db: Db, id: int): (r: Outcome<Db>)
    ensures id !in db.visits ==> r == NotFound
    ensures id in db.visits && db.visits[id].status != Oczekujaca ==> r == BadRequest(NotPending)
    ensures r.Ok? <==> id in db.visits && db.visits[id].status == Oczekujaca
    ensures r.Ok? ==> r.value.visits == db.visits[id := db.visits[id].(status := Odrzucona)]
    ensures r.Ok? ==> r.value == db.(visits := r.value.visits, slots := r.value.slots)
    ensures r.Ok? ==>
      match MatchingSlot(db.slots, db.visits[id].doctor, db.visits[id].data)
      case None => r.value.slots == db.slots
      case Some(k) => r.value.slots == db.slots[k := db.slots[k].(available := true)]
  {
    if id !in db.visits then NotFound
    else
      var v := db.visits[id];
      if v.status != Oczekujaca then BadRequest(NotPending)
      else
        var slots := match MatchingSlot(db.slots, v.doctor, v.data)
          case None => db.slots
          case Some(k) => db.slots[k := db.slots[k].(available := true)];
        Ok(WithStatus(db, id, Odrzucona).(slots := slots))
  }

  /** RezerwujWizyte: a patient books a slot. The checks run in the
      handler's order: patient, slot, availability, then the slot must
      start after `now`. The new visit waits for the doctor and the slot
      is taken. */
  function Reserve(db: Db, patient: int, slot: int, now: Instant): (r: Outcome<Created>)
    ensures patient !in db.patients ==> r == BadRequest(PatientMissing)
    ensures patient in db.patients && slot !in db.slots ==> r == BadRequest(SlotMissing)
    ensures patient in db.patients && slot in db.slots && !db.slots[slot].available ==> r == BadRequest(SlotTaken)
    ensures patient in db.patients && slot in db.slots && db.slots[slot].available && db.slots[slot].start <= now ==>
              r == BadRequest(SlotInPast)
    ensures r.Ok? <==> patient in db.patients && slot in db.slots && db.slots[slot].available &&
                       db.slots[slot].start > now
    ensures r.Ok? ==> r.value.id !in db.visits
    ensures r.Ok? ==> var t := db.slots[slot];
              r.value.db == db.(visits := db.visits[r.value.id := Visit(t.start, Oczekujaca, patient, t.doctor)],
                                slots := db.slots[slot := t.(available := false)])
  {
    if patient !in db.patients then BadRequest(PatientMissing)
    else if slot !in db.slots then BadRequest(SlotMissing)
    else
      var t := db.slots[slot];
      if !t.available then BadRequest(SlotTaken)
      else if t.start <= now then BadRequest(SlotInPast)
      else
        var id := FreshKey(db.visits);
        Ok(Created(db.(visits := db.visits[id := Visit(t.start, Oczekujaca, patient, t.doctor)],
                       slots := db.slots[slot := t.(available := false)]), id))
  }

  /** Applying the same admin patch twice changes nothing more than
      applying it once. */
  lemma UpdateIdempotent(db: Db, id: int, p: VisitPatch)
    requires UpdateVisit(db, id, p).Ok?
    ensures UpdateVisit(UpdateVisit(db, id, p).value, id, p) == UpdateVisit(db, id, p)
  {
    var once := UpdateVisit(db, id, p).value;
    var twice := UpdateVisit(once, id, p).value;
    assert once.visits[id] == twice.visits[id] by {
      if Present(p.status) {
        var s := once.visits[id].status;
        var s' := twice.visits[id].status;
        ParseStatusName(s);
        ParseStatusName(s');
      }
    }
    assert once.visits[id := twice.visits[id]] == once.visits;
  }

  /** An empty patch leaves the store as it was. */
  lemma EmptyPatchChangesNothing(db: Db, id: int)
    requires id in db.visits
    ensures UpdateVisit(db, id, VisitPatch(None, None, None)) == Ok(db)
  {
    assert db.visits[id := db.visits[id]] == db.visits;
  }

  /** The admin patch performs no busy check: it can move a visit onto an
      instant at which the same doctor already has a planned visit. */
  lemma UpdateSkipsBusyCheck(db: Db)
    requires db.doctors.Keys == {7}
    requires db.visits == map[1 := Visit(600, Zaplanowana, 2, 7), 3 := Visit(660, Zaplanowana, 4, 7)]
    ensures DoctorBusyAt(db.visits, 7, 600)
    ensures UpdateVisit(db, 3, VisitPatch(Some(600), None, None)).Ok?
  {
    assert db.visits[1].doctor == 7 && db.visits[1].data == 600;
  }

  /** Reservation does not run the busy check of direct creation: a slot
      can be booked at an instant where the doctor already has a planned
      visit, leaving two live visits of one doctor at one instant. */
  lemma ReserveSkipsBusyCheck(db: Db)
    requires 2 in db.patients
    requires db.visits == map[1 := Visit(600, Zaplanowana, 2, 7)]
    requires db.slots == map[5 := Slot(600, 630, true, 7)]
    ensures DoctorBusyAt(db.visits, 7, 600)
    ensures var r := Reserve(db, 2, 5, 0);
      && r.Ok?
      && r.value.db.visits[1].status == Zaplanowana
      && r.value.db.visits[r.value.id] == Visit(600, Oczekujaca, 2, 7)
  {
    assert db.visits[1].doctor == 7 && db.visits[1].data == 600;
  }
}
